=== FILE: README.md ===
# py-midiplexer, modelled in Dafny

py-midiplexer routes MIDI controller input to MIDI client programs. Controller
workers turn raw input into `(controller, signal)` pairs. An orchestrator owns
the routing tables and a two-valued mode. In trigger mode a signal broadcasts
single-track toggle events. In scene mode it sends every client one scene
event. Client workers apply events to their tracks, and each track sends a
composed MIDI message on its port whenever its playing state changes.

This project models that dispatch logic as pure functions over immutable
values:

- Queues are sequences drained in order.
- A port is the sequence of messages sent on it.
- An uncaught Python exception that ends a worker process is a `Halt` value.
- The router's own exceptions are `Result` failures.
- Python dictionaries whose iteration order decides message order keep that
  order explicitly. For a client this is an `order` sequence next to the track
  map. For the trigger map it is the innermost `client -> [track]` level, which
  is a sequence of bindings.

Modules, one per source file:

| module | file | contents |
|---|---|---|
| `Common` | — | `Option`, `Result`, distinctness, suffixes, parity helpers |
| `Errors` | `src/py_midiplexer/exceptions.py` | the three router exceptions and their messages; the `Halt` faults |
| `Tracks` | `src/py_midiplexer/track.py` | track creation, message composition, `trigger`, `get_config_dict` |
| `Clients` | `py_midiplexer/client.py` | the newer client worker: track creation, event resolution and application, commands, the worker loop |
| `LegacyClients` | `src/py_midiplexer/client.py` | the older client worker and where it differs from the newer one |
| `Controllers` | `src/py_midiplexer/controller.py` | the signal map, `check`, `register`, the command and polling steps |
| `Routing` | `src/py_midiplexer/py_midiplexer.py` | the four routing tables and their mutators |
| `Plexer` | `src/py_midiplexer/py_midiplexer.py` | the mode machine, `trigger_event`, `trigger_track`, `trigger_scene`, `handle_signals` |
| `Scenarios` | both of the last two | end-to-end properties: a signal handled by the orchestrator, then the event applied by a client |
| `Luppp` | `py_midiplexer/includes/luppputils.py` | `genconfig` as a method with loops |

Some behaviour is modelled as the code does it, even where the intent may
differ:

- `trigger_track` puts the track's event on every client's queue. The client
  name is compared only to decide a debugging print.
- A scene event with track list `L` and desired state `False` switches on
  every track outside `L`.
- A signal missing from the current mode's map is logged and dropped. Signals
  behind it in the queue are still handled. This follows Python 3.9 and
  earlier; see `Plexer.Route` under "Left out".
- A mode-switch signal ends `handle_signals` at once. Signals behind it wait
  for the next call.

## Model

| member | source | states |
|---|---|---|
| Errors.Message | src/py_midiplexer/exceptions.py:1-19 | Every message starts with "Error: ". A NoSuchTrack message is exactly the track lead text, the label, `' for client '`, the client, and `'.`. NoSuchSignal has the same shape with the signal lead, the signal, `' for controller '` and the controller. NothingToDo reads exactly "Error: Nothing to do." |
| Errors.MessageDeterminesKind | src/py_midiplexer/exceptions.py:1-19 | Two equal messages come from exceptions of the same kind. |
| Tracks.NewTrack | src/py_midiplexer/track.py:24-43 | Creation fails with a KeyError exactly when `type` is missing. Otherwise the track is not playing and not armed, and its working fields are its default data. Each of `data`, `on_data` and `off_data` is the given dictionary, or `{}` when absent. |
| Tracks.Overlay | src/py_midiplexer/track.py:146-149 | Applying an override dictionary yields the union of the keys. On a shared key the override's value wins. Every other key keeps its base value. |
| Tracks.GetMsg | src/py_midiplexer/track.py:45-144 | A message is composed exactly for the seventeen known types. It carries exactly that type's fields. Each field comes from the working dictionary, or else defaults to 64 for velocity and 0 for anything else. |
| Tracks.GetMsgIgnoresForeignFields | src/py_midiplexer/track.py:111-144 | Changing a field the type does not carry leaves the message unchanged. |
| Tracks.ControlChangeExample | src/py_midiplexer/track.py:117-118 | A control change carries channel, control and value, and drops a stray note field. |
| Tracks.NoteOnDefaultsExample | src/py_midiplexer/track.py:51-64 | A note on with no data has channel 0, note 0 and velocity 64. |
| Tracks.ClockExample | src/py_midiplexer/track.py:135-136 | A clock message carries no fields. |
| Tracks.UnknownKindExample | src/py_midiplexer/track.py:111-144 | An unrecognised type composes no message. |
| Tracks.Trigger | src/py_midiplexer/track.py:163-198 | `None` flips `playing`, and `Some(b)` sets it to `b`. Afterwards the working fields are back at the defaults and the configuration is unchanged. Without a state change nothing is sent. With one, exactly one message of the track's type is appended. That message takes a field from the override for the new state if present, else from the default data, else from the fixed default. |
| Tracks.ToggleTwiceRestores | src/py_midiplexer/track.py:169-177 | Two toggles restore the track. They send two messages, or none for an unknown type. |
| Tracks.ForceIdempotent | src/py_midiplexer/track.py:179-190 | Driving a track to a state it was just driven to changes nothing and sends nothing. |
| Tracks.OverridePrecedenceExample | src/py_midiplexer/track.py:157-177 | A control change with on-data value 127 over default value 0 sends value 127 when it starts. Afterwards its working fields are the defaults again. |
| Tracks.ConfigOf | src/py_midiplexer/track.py:200-201 | The config reports label, type and working fields. For a track at its defaults these are the default data. |
| Clients.CreateTrack | py_midiplexer/client.py:70-73 | Creation fails exactly when `type` is missing. Otherwise the label is inserted at the end of the order, or replaced in place if present. The track stored there is the one `MidiTrack` builds from the attributes as given: its type, data, on-data and off-data come from them, and it is stopped and not armed. All other tracks are unchanged and the client stays well formed. |
| Clients.StampIsInvisible | src/py_midiplexer/track.py:24-43 | The `toggle_record` flag that `create_track` stamps into the attributes does not affect the track built from them. |
| Clients.FirstMissing | py_midiplexer/client.py:93-97 | Returns nothing exactly when every label has a track. Otherwise it returns the index of the first label without one. |
| Clients.Resolve | py_midiplexer/client.py:92-97 | Resolution succeeds exactly when the list is `None` or every label exists. `None` resolves to all tracks in dictionary order, and a list resolves to itself. A failure is NoSuchTrack naming this client and the earliest listed label the client lacks. |
| Clients.TriggerEach | py_midiplexer/client.py:103-112 | Triggering the listed tracks keeps the client's name, order, keys and each track's configuration. Unlisted tracks are untouched. Listed tracks end at their defaults. Messages are only appended, and well-formedness is kept. |
| Clients.TriggerEachPlaying | py_midiplexer/client.py:103-112 | With a desired state, every listed track ends in it. As toggles, each track's flag flips once per occurrence of its label in the list, that is, by the parity of its count. |
| Clients.TriggerEachForceSends | src/py_midiplexer/track.py:179-190 | Driving the listed tracks to a state sends exactly one message per track that switched and has a type that composes one. A label listed twice sends at most once. |
| Clients.TriggerEachForceOrder | src/py_midiplexer/track.py:179-190 | Driving the listed tracks to a state sends its messages in list order. There is one for the first occurrence of each track that was not in that state yet and has a type that composes one, of that track's type. |
| Clients.Switching | src/py_midiplexer/track.py:179-190 | The senders of a forced pass, defined without reference to triggering. Each label appears at most once, and only for a track not yet in the state whose type composes a message. |
| Clients.TriggerEachToggleSends | src/py_midiplexer/track.py:169-177 | Toggling listed tracks whose types all compose a message sends one message per listed label. The message types are the listed tracks' types, in list order. |
| Clients.Outside | py_midiplexer/client.py:111-112 | Yields exactly the client's labels that are not in the chosen list, in the client's order. |
| Clients.DriveScene | py_midiplexer/client.py:106-112 | The two scene passes keep the client well formed, with the same name, order and keys. They append one message per track that switched state and has a type that composes one, and nothing else. |
| Clients.DriveSceneOrder | py_midiplexer/client.py:106-112 | The two passes send in order. First come the messages for the listed tracks switching to `b`, then those for the client's other tracks, in creation order, switching to `not b`. Each message has its track's type. |
| Clients.DriveSceneRule | py_midiplexer/client.py:106-112 | After the two passes every listed track is at `b` and every other track at `not b`. Configurations are unchanged. |
| Clients.ApplyEvent | py_midiplexer/client.py:88-112 | Applying an event succeeds exactly when every listed label exists. Otherwise it fails before any trigger, with NoSuchTrack naming the earliest listed label the client lacks. On success: a `None` list stops every track, a toggle list flips each track by the parity of its count, and a scene list sets the listed tracks to the desired state and all others to its opposite. |
| Clients.ApplyEventSends | py_midiplexer/client.py:103-112 | A scene event, or one for all tracks, sends one message per track that switched state and has a type that composes one. The listed tracks' messages come first, then those of the other tracks in creation order, each of its track's type. A toggle event whose tracks all have such types sends one message per listed label, of that track's type, in list order. |
| Clients.TriggerEachSettled | src/py_midiplexer/track.py:179-190 | Driving tracks that are already in the desired state changes nothing and sends nothing. |
| Clients.SceneEventIdempotent | py_midiplexer/client.py:106-112 | Applying the same all-off or scene event a second time changes nothing and sends nothing. |
| Clients.ToggleEventTwiceRestores | py_midiplexer/client.py:103-105 | Applying the same toggle event twice restores the client exactly. |
| Clients.PlayingLabels | py_midiplexer/client.py:49-53 | Lists exactly the playing labels. For an order without repeats they are listed without repeats and as a subsequence of that order. |
| Clients.TrackstatePlaying | py_midiplexer/client.py:49-53 | Publishes exactly the labels of the playing tracks, each once, in dictionary order. |
| Clients.ConfigDict | py_midiplexer/client.py:44-47 | Reports name, type "midi", and each track's label, type and default data, keyed by label. |
| Clients.ToggleRecord | py_midiplexer/client.py:148-154 | On a known label the track becomes armed and stopped and nothing else changes. An unknown label changes nothing. |
| Clients.Execute | py_midiplexer/client.py:134-157 | Each of the command kinds has its effect and no other. `list_tracks` stops the worker with a TypeError. A track without a type stops it with a KeyError. Unknown commands are ignored. |
| Clients.DrainCommands | py_midiplexer/client.py:134-157 | A worker that is not stopped ends with no commands queued. Events, port and log are untouched, and a stopped worker is left alone. |
| Clients.ExecuteEffect | py_midiplexer/client.py:134-157 | One command on a running worker stops it exactly when it is `list_tracks` or a track without a type, and then with that command's fault. Otherwise it adds its track or its reply, if any. |
| Clients.DrainCommandsStops | py_midiplexer/client.py:134-157 | Draining stops a running worker exactly when a stopping command is queued. |
| Clients.DrainCommandsFault | py_midiplexer/client.py:134-157 | When draining stops the worker, it stops at the first stopping command with that command's fault. The commands behind it stay queued. |
| Clients.DrainCommandsRuns | py_midiplexer/client.py:134-157 | Tracks and replies are only ever added. When the worker does not stop, every queued track is created and every queued reply published. |
| Clients.DrainEvents | py_midiplexer/client.py:85-132 | If the first event fails, it is dropped, its NoSuchTrack is logged, and the events behind it stay queued with nothing else changed. In every case the queue left is a suffix of the old one and the log grows by at most one entry. The log grows by exactly one when events remain. Commands and replies are untouched. |
| Clients.Iteration | py_midiplexer/client.py:167-172 | A pass ends with no commands pending unless a command stopped the worker. A command that stops the worker does so before any event of the pass is applied: events and port are as they were. A stopped worker stays as it is. |
| Clients.IterationAfterCommands | py_midiplexer/client.py:167-170 | The events of a pass are applied to the client the commands left: after the pass they settle to what they settle to from that client. |
| Clients.CommandsBeforeEvents | py_midiplexer/client.py:167-170 | A track created and toggled in the same pass is playing at the end of that pass. |
| Clients.DrainEventsKeepsPending | py_midiplexer/client.py:85-132 | Draining events never changes what the queue settles to, whether it stops on a failure or finishes. |
| Clients.IterationStep | py_midiplexer/client.py:167-172 | With no commands pending, a pass shortens a non-empty event queue and keeps what it settles to. |
| Clients.RunSettles | py_midiplexer/client.py:167-172 | The loop survives NoSuchTrack. As many passes as there are queued events empty the queue, leaving client and port as the events settle them. |
| Clients.RunSettlesStep | py_midiplexer/client.py:167-172 | The same for at least one pass, by taking the first pass and then the rest. |
| LegacyClients.LegacyCreateTrack | src/py_midiplexer/client.py:53-55 | Fails with a KeyError exactly when `type` is missing. Otherwise it inserts the label at the end of the order, or replaces it in place, with the track `MidiTrack` builds from the attributes. Name, record flag and all other tracks are unchanged. |
| LegacyClients.CreateTrackAgrees | src/py_midiplexer/client.py:53-55 | The older and newer `create_track` produce the same client. |
| LegacyClients.LegacyApplyEvent | src/py_midiplexer/client.py:67-92 | An unknown label gives NoSuchTrack naming the earliest listed label the client lacks. A `None` list, or a listed scene event, crashes with an AttributeError whenever the client has tracks. A listed scene event first drives the listed tracks to the desired state. |
| LegacyClients.LegacyTogglesAgree | src/py_midiplexer/client.py:83-85 | On toggle events both client versions give the same outcome, error for error. |
| LegacyClients.LegacyExecute | src/py_midiplexer/client.py:114-125 | Only `create_track` and `list_tracks` have any effect. `create_track` inserts the built track, or stops the worker with that KeyError. Listing stops the worker with an AttributeError unless the client has no tracks, in which case it publishes an empty listing. |
| LegacyClients.LegacyExecuteEffect | src/py_midiplexer/client.py:114-125 | One command on a running older worker stops it exactly when it is a track without a type, or a listing of a client that has tracks. It then stops with that command's fault. Otherwise it adds its track or its empty listing. |
| LegacyClients.LegacyDrainCommands | src/py_midiplexer/client.py:114-125 | A worker that is not stopped ends with no commands queued. Events, port and log are untouched, and a stopped worker is left alone. |
| LegacyClients.LegacyDrainCommandsStops | src/py_midiplexer/client.py:114-125 | Draining stops a running older worker exactly when some command meets a stopping condition, given the tracks created before it. |
| LegacyClients.LegacyDrainCommandsFault | src/py_midiplexer/client.py:114-125 | When draining stops the worker, it stops at a command meeting a stopping condition, with that command's fault. The commands behind it stay queued. |
| LegacyClients.LegacyDrainCommandsRuns | src/py_midiplexer/client.py:114-125 | When the older worker does not stop, every queued track is created and every listing is published as an empty one. |
| LegacyClients.LegacyDrainEvents | src/py_midiplexer/client.py:67-112 | On a queue of toggle events it behaves exactly like the newer client. An event that crashes stops the worker with that fault and drops the event. A fault that stops the worker here is always an AttributeError. |
| LegacyClients.LegacyIteration | src/py_midiplexer/client.py:135-140 | A command that stops the worker does so before any event of the pass is applied. A pass that sends a message has run all its commands. A stopped worker stays as it is. |
| LegacyClients.SceneEventCrashesLegacy | src/py_midiplexer/client.py:89-92 | The same scene event crashes the older worker and is applied by the newer one. |
| Controllers.Check | src/py_midiplexer/controller.py:79-97 | No input gives no signal. A mapped signature gives its label and an unmapped one gives nothing. |
| Controllers.Register | src/py_midiplexer/controller.py:100-108 | Maps the signature to the given label, or to the map's size when no label is given. An earlier mapping is overwritten. Other mappings are kept, and the map grows by at most one entry. |
| Controllers.RegisterThenCheck | src/py_midiplexer/controller.py:100-108 | A registered signature is then recognised with its label. |
| Controllers.AutoLabelsMayRepeat | src/py_midiplexer/controller.py:101-102 | Re-registering a signature and then registering a new one gives both the same automatic label. |
| Controllers.Execute | src/py_midiplexer/controller.py:120-124 | `register` and `queue_config_dict` have their effect. Other keys are ignored. |
| Controllers.DrainCommands | src/py_midiplexer/controller.py:110-128 | Runs every command, leaving none queued and the signal queue untouched. The mapped signatures become the old ones plus every registered one, and the unregistered ones keep their labels. One `midi` configuration of the controller is published per request. |
| Controllers.ProcessSignals | src/py_midiplexer/controller.py:129-132 | Queues `(name, signal)` exactly when the input is mapped. |
| Controllers.Iteration | src/py_midiplexer/controller.py:144-146 | A pass empties the commands and adds at most one signal to the end of the queue. |
| Controllers.RegisterBeforePoll | src/py_midiplexer/controller.py:144-146 | A signature registered by a command is recognised by the poll of the same pass. |
| Routing.Append | src/py_midiplexer/py_midiplexer.py:112-115 | The client's track list gains the track at its end, or is created as `[track]`. Other clients' lists are unchanged. |
| Routing.AppendKeepsClientOrder | src/py_midiplexer/py_midiplexer.py:112-115 | Clients keep their insertion order. A new client is added last. |
| Routing.Flatten | src/py_midiplexer/py_midiplexer.py:207-208 | Yields exactly the tracks bound to some client of the entry. |
| Routing.AssignTrack | src/py_midiplexer/py_midiplexer.py:109-119 | Appends the track to `[controller][signal][client]`, creating missing levels. Every other client, entry and table is unchanged. |
| Routing.AssignTrackKeepsDuplicates | src/py_midiplexer/py_midiplexer.py:109-119 | Assigning the same track twice binds it twice. |
| Routing.AddScene | src/py_midiplexer/py_midiplexer.py:98-99 | Registers the scene as empty, replacing a scene of that name. Nothing else changes. |
| Routing.AddTrackToScene | src/py_midiplexer/py_midiplexer.py:101-107 | Appends the track to the client's list in the scene. An absent scene is first created empty, and an absent client gets a fresh list. Nothing else changes. |
| Routing.AssignScene | src/py_midiplexer/py_midiplexer.py:121-130 | Fails exactly when the signal is already mapped. Otherwise it maps the signal to the scene, creates the scene if absent and leaves every other mapping alone. |
| Routing.AssignModeSwitch | src/py_midiplexer/py_midiplexer.py:132-136 | Appends the signal to the controller's list, creating the list if absent. Nothing else changes. |
| Routing.AssignModeSwitchRecognised | src/py_midiplexer/py_midiplexer.py:132-136 | After the assignment the signal counts as a mode switch. |
| Plexer.ChangeMode | src/py_midiplexer/py_midiplexer.py:231-236 | The mode always changes: trigger becomes scene and scene becomes trigger. |
| Plexer.ChangeModeTwiceRestores | src/py_midiplexer/py_midiplexer.py:231-236 | Changing the mode twice restores it. |
| Plexer.TriggerEvent | src/py_midiplexer/py_midiplexer.py:184-190 | Appends exactly one event, with the track list as given. In trigger mode the desired state is `None` whatever was asked. In scene mode it is kept. |
| Plexer.TrackToAll | src/py_midiplexer/py_midiplexer.py:178-182 | Every client, in order, receives the track's toggle event. |
| Plexer.TriggerTrack | src/py_midiplexer/py_midiplexer.py:171-182 | Every client receives `([track], None)`, whichever client is named. Mode, tables and signals are unchanged. |
| Plexer.TriggerTracks | src/py_midiplexer/py_midiplexer.py:208-210 | A client's tracks are broadcast in order, each as one toggle event to every client. |
| Plexer.TriggerBindings | src/py_midiplexer/py_midiplexer.py:206-210 | A trigger entry sends every client the toggle events of all the entry's tracks, client by client. |
| Plexer.SceneEvent | src/py_midiplexer/py_midiplexer.py:162-169 | A client in the scene gets its member list with `True`. Any other client gets `None` with `False`. In trigger mode the state is `None`. |
| Plexer.SceneToAll | src/py_midiplexer/py_midiplexer.py:162-169 | Every client, in order, receives exactly its scene event. |
| Plexer.TriggerScene | src/py_midiplexer/py_midiplexer.py:154-169 | An unknown scene changes nothing. Otherwise each client receives exactly one scene event. |
| Plexer.EmptySceneAllOff | src/py_midiplexer/py_midiplexer.py:154-169 | An empty scene sends "all off" to every client. |
| Plexer.Route | src/py_midiplexer/py_midiplexer.py:205-216 | A missing key changes nothing. In trigger mode every client receives the toggle events of the entry's tracks. In scene mode the mapped scene is triggered. Tables, mode and queue are unchanged. |
| Plexer.DrainSignals | src/py_midiplexer/py_midiplexer.py:194-216 | With no mode switch in the queue, the whole queue is consumed in the same mode. A queue left non-empty means the mode changed. The tables never change, and what is left is a suffix of the queue. |
| Plexer.DrainSignalsExact | src/py_midiplexer/py_midiplexer.py:194-216 | The signals in front of the first mode switch are routed one after the other, in queue order. The switch then flips the mode, and exactly the signals behind it stay queued. With no switch, every signal is routed and the queue ends empty. |
| Plexer.RouteIgnoresQueue | src/py_midiplexer/py_midiplexer.py:205-213 | Routing a signal gives the same clients whatever signals are still queued behind it. |
| Plexer.HandleSignals | src/py_midiplexer/py_midiplexer.py:192-218 | Fails with NothingToDo exactly when the queue is empty. A mode switch at the head only flips the mode and leaves the rest queued. Tables and clients are kept. |
| Plexer.HandleLoneSignal | src/py_midiplexer/py_midiplexer.py:192-216 | A lone signal that is not a mode switch is routed, and that is the whole effect. |
| Plexer.UnmappedSignalIsDropped | src/py_midiplexer/py_midiplexer.py:205-216 | A lone unmapped signal is consumed, and nothing else changes. |
| Plexer.ScenePressTwice | src/py_midiplexer/py_midiplexer.py:154-169 | Pressing a scene signal twice sends each client its scene event twice. |
| Plexer.TriggerPressTwice | src/py_midiplexer/py_midiplexer.py:205-210 | Pressing a trigger signal twice in trigger mode sends every client the bound tracks' toggle events twice. |
| Scenarios.ApplySceneEvent | py_midiplexer/client.py:106-112 | A client applying its scene event ends with exactly its scene tracks playing. |
| Scenarios.SceneActivationPlaysExactlyScene | src/py_midiplexer/py_midiplexer.py:154-169 | After a scene signal in scene mode, the client receives one event. Applying it leaves playing exactly that client's tracks of the scene. |
| Scenarios.ScenePressIdempotent | src/py_midiplexer/py_midiplexer.py:154-169 | Pressing a scene signal twice settles every client exactly as pressing it once. A client lacking one of the scene's tracks fails both times alike. |
| Scenarios.ApplyTrackEvent | py_midiplexer/client.py:103-105 | One broadcast toggle event flips exactly its track. |
| Scenarios.SettleTrackEvents | py_midiplexer/client.py:85-105 | For every client, a queue of broadcast toggle events flips each of its tracks by the parity of its count. Events for tracks it lacks are skipped, and nothing else changes. |
| Scenarios.TrackEventsTwiceRestore | py_midiplexer/client.py:103-105 | Settling a track list's toggle events twice over restores every client, whichever of the tracks it has. |
| Scenarios.TriggerPressTwiceRestores | src/py_midiplexer/py_midiplexer.py:205-210 | Pressing a trigger signal twice delivers its events twice to every client, which restores every client. |
| Scenarios.DemoSceneDelivers | src/py_midiplexer/py_midiplexer.py:162-169 | With scene `s1` holding `A`'s `t0`, a press sends `A` (`["t0"]`, on) and `B` (`None`, off). |
| Scenarios.DemoClientsApply | py_midiplexer/client.py:92-112 | Those events leave `A.t0` playing, `A.t1` stopped, and `B.t0` stopped though it was playing. |
| Luppp.GenConfig | py_midiplexer/includes/luppputils.py:3-24 | The config is named "py-midiplexer" with the given author and has 18 bindings. Binding `i` is a grid event on scene 0 for track `i / 2 + 1`, with data equal to the track. Status and active are 176 and 1 for even `i`, and 0 and 0 for odd `i`. |

## Left out

- Port I/O: opening mido ports, backends, sending and polling. A port is the list of sent messages, an input is the raw hex signature given as a parameter, and mido's own validation of messages is not modelled.
- Concurrency: processes, queues, events, `check_lock`, sleeps, `shutdown` and `join`. Queues are sequences drained in order.
- The orchestrator's `run` loop and its idle flag `wait`.
- The controller's `run` loop, beyond one pass (`Controllers.Iteration`), and the worker loops beyond `n` passes (`Clients.Run`).
- `load_config` is not modelled: it uses an unimported module and an undefined attribute. There is no save operation to model.
- Routing.AssignScene: re-mapping a signal that already has a scene calls `update` on a string in the source and raises. The model returns `None` there and does not describe that fault further.
- The unreachable code after `continue` in both `process_events`.
- The deprecated client `trigger_track`, which reads an undefined name.
- `Controller.listen`, which is deprecated.
- The older client's `Client.__init__`, which calls an unbound `create_track`.
- The orchestrator's `process_commands`, `add_client`, `list_*` helpers and `register_controller_signal`. They forward commands to workers, and their effects are modelled at the workers.
- The CLI and UI modules, logging, `print` and `pprint`.
- Field values are integers. The `sysex` data tuple is an integer field like the others.
- Tracks.Trigger: for an unknown message type the model flips the flag, sends nothing and carries on. In the source `get_msg` returns `None` and `port.send(None)` raises a TypeError in mido. Nothing catches it, so the worker stops. Tracks.ToggleTwiceRestores's "none for an unknown type" and the message counts and orders of Clients.TriggerEachForceSends, Clients.TriggerEachForceOrder, Clients.DriveSceneOrder and Clients.ApplyEventSends rely on this model-only behaviour.
- Command dictionaries with several keys: each command carries one key.
- Controllers.Execute: `register` takes the signature the blocking read would return as part of the command.
- Luppp.GenConfig: the result is a record. The JSON text and the `USER` environment variable are not modelled, so the author is a parameter.
- Plexer.Route: the model follows Python 3.9 and earlier, where the KeyError handler of `handle_signals` (src/py_midiplexer/py_midiplexer.py:214-216) logs the fault and carries on. It formats the traceback with `traceback.format_exception(etype=...)`. From Python 3.10 on that function has no `etype` keyword, so the handler itself raises a TypeError. `run` (src/py_midiplexer/py_midiplexer.py:294-305) catches only NothingToDo, so on those interpreters an unmapped signal stops the orchestrator and the signals behind it are never handled. Plexer.UnmappedSignalIsDropped and the "missing key changes nothing" clauses of Plexer.Route state the 3.9 behaviour. The source pins no interpreter version.
- Clients.Execute: `list_tracks` and `__dict__` are modelled only up to the fault that stops the worker. The message text of that fault is not modelled.

## Findings

| source | as written | input that shows it | evidently intended | confidence | as-written member | corrected member |
|---|---|---|---|---|---|---|
| src/py_midiplexer/client.py:89-92 | The second pass of a scene event iterates the client's dictionary, which yields labels (strings). It then calls `trigger` on a string. | Client `A` with one track `t0`, event `(["t0"], True)`. | Iterate the track objects, as py_midiplexer/client.py:111-112 does. Every unlisted track is driven to the opposite state. | not executed | LegacyClients.SceneEventCrashesLegacy | Clients.DriveSceneRule |

=== FILE: clients.dfy ===
/**
 * A client worker (py_midiplexer/client.py): a named set of tracks that
 * applies activation events, and the command/event loop around it.
 */
module Clients {
  import opened Common
  import opened Errors
  import opened Tracks

  /**
   * An activation event. `tracklist == None` means every track of the client;
   * `desired == None` asks for a toggle of each listed track.
   */
  datatype Event = Event(tracklist: Option<seq<string>>, desired: Option<bool>)

  /**
   * A client. The tracks dictionary is `order` (insertion order, which is the
   * order Python iterates it in) together with `tracks` (label to track).
   */
  datatype Client = Client(name: string, toggleRecord: bool, order: seq<string>, tracks: map<string, Track>)

  /** The representation invariant every client keeps. */
  ghost predicate WellFormed(c: Client)
  {
    && Distinct(c.order)
    && (forall l :: l in c.order <==> l in c.tracks)
    && (forall l :: l in c.tracks ==> c.tracks[l].name == l && AtDefault(c.tracks[l]))
  }

  /** A client with no tracks yet. */
  function NewClient(name: string, toggleRecord: bool): (c: Client)
    ensures WellFormed(c) && c.tracks == map[]
  {
    Client(name, toggleRecord, [], map[])
  }

  /** The attribute dictionary after `create_track` writes the client's record flag into it. */
  function Stamp(attrs: TrackAttrs, flag: bool): (r: TrackAttrs)
    ensures r.toggleRecord == Some(flag)
  {
    attrs.(toggleRecord := Some(flag))
  }

  /**
   * `create_track`: stamps the attributes, builds the track and inserts it
   * under its label, replacing any track already there (in place).
   */
  function CreateTrack(c: Client, trackName: string, attrs: TrackAttrs): (r: Result<Client, Halt>)
    requires WellFormed(c)
    ensures r.Success? <==> attrs.kind.Some?
    ensures r.Failure? ==> r.error == KeyErrorOn("type")
    ensures r.Success? ==>
      && WellFormed(r.value)
      && r.value.name == c.name && r.value.toggleRecord == c.toggleRecord
      && r.value.tracks.Keys == c.tracks.Keys + {trackName}
      && (trackName in c.tracks ==> r.value.order == c.order)
      && (trackName !in c.tracks ==> r.value.order == c.order + [trackName])
      && !r.value.tracks[trackName].playing
      && r.value.tracks[trackName] == NewTrack(trackName, attrs).value
      && (forall l :: l in c.tracks && l != trackName ==> r.value.tracks[l] == c.tracks[l])
  {
    StampIsInvisible(trackName, attrs, c.toggleRecord);
    match NewTrack(trackName, Stamp(attrs, c.toggleRecord))
    case Failure(h) => Failure(h)
    case Success(t) =>
      var order := if trackName in c.tracks then c.order else c.order + [trackName];
      var r := c.(order := order, tracks := c.tracks[trackName := t]);
      assert Distinct(order) by {
        if trackName !in c.tracks {
          assert trackName !in c.order;
        }
      }
      Success(r)
  }

  /** The stamp is written into the attribute dictionary only: the track never reads it. */
  lemma StampIsInvisible(trackName: string, attrs: TrackAttrs, flag: bool)
    ensures NewTrack(trackName, Stamp(attrs, flag)) == NewTrack(trackName, attrs)
  {
  }

  /** Index of the first label of `labels` that has no track, if any. */
  function FirstMissing(labels: seq<string>, tracks: map<string, Track>): (r: Option<nat>)
    ensures r.None? <==> forall i :: 0 <= i < |labels| ==> labels[i] in tracks
    ensures r.Some? ==>
      && r.value < |labels|
      && labels[r.value] !in tracks
      && forall i :: 0 <= i < r.value ==> labels[i] in tracks
    decreases |labels|
  {
    if labels == [] then None
    else if labels[0] !in tracks then Some(0)
    else
      match FirstMissing(labels[1..], tracks)
      case None => None
      case Some(k) => Some(k + 1)
  }

  /** `l` is the earliest label of `labels` without a track. */
  predicate FirstUnknown(labels: seq<string>, tracks: map<string, Track>, l: string)
  {
    exists i :: 0 <= i < |labels| && labels[i] == l && l !in tracks && forall j :: 0 <= j < i ==> labels[j] in tracks
  }

  /**
   * Resolves an event's track list to labels, all or nothing. `None` means
   * every track in dictionary order; the first unknown label raises NoSuchTrack.
   */
  function Resolve(c: Client, tracklist: Option<seq<string>>): (r: Result<seq<string>, Error>)
    requires WellFormed(c)
    ensures r.Success? <==> tracklist.None? || forall l :: l in tracklist.value ==> l in c.tracks
    ensures r.Success? ==> forall l :: l in r.value ==> l in c.tracks
    ensures r.Success? && tracklist.Some? ==> r.value == tracklist.value
    ensures tracklist.None? ==> r == Success(c.order)
    ensures r.Failure? ==>
      && r.error.NoSuchTrack?
      && r.error.client == c.name
      && FirstUnknown(tracklist.value, c.tracks, r.error.trackLabel)
  {
    match tracklist
    case None => Success(c.order)
    case Some(labels) =>
      match FirstMissing(labels, c.tracks)
      case Some(i) => Failure(NoSuchTrack(c.name, labels[i]))
      case None => Success(labels)
  }

  /** A client together with its port after applying triggers. */
  datatype Applied = Applied(client: Client, port: seq<Message>)

  /**
   * Calls `trigger(desired)` on each listed track in turn. Only the playing
   * flags of the listed tracks change (`TriggerEachPlaying` says how), and
   * each listed track ends at its defaults.
   */
  function TriggerEach(c: Client, labels: seq<string>, desired: Option<bool>, port: seq<Message>): (r: Applied)
    requires forall l :: l in labels ==> l in c.tracks
    ensures r.client.name == c.name && r.client.order == c.order && r.client.toggleRecord == c.toggleRecord
    ensures r.client.tracks.Keys == c.tracks.Keys
    ensures forall l :: l in c.tracks ==> SameConfig(c.tracks[l], r.client.tracks[l])
    ensures forall l :: l in c.tracks && l !in labels ==> r.client.tracks[l] == c.tracks[l]
    ensures forall l :: l in labels ==> AtDefault(r.client.tracks[l])
    ensures port <= r.port
    ensures WellFormed(c) ==> WellFormed(r.client)
    decreases |labels|
  {
    if labels == [] then Applied(c, port)
    else
      var l := labels[0];
      var fired := Trigger(c.tracks[l], desired, port);
      var next := c.(tracks := c.tracks[l := fired.track]);
      assert forall x :: x in labels[1..] ==> x in labels;
      TriggerEach(next, labels[1..], desired, fired.port)
  }

  /**
   * The playing flags `TriggerEach` leaves: with a desired state every listed
   * track is in it; as toggles, each track has flipped once per occurrence of
   * its label in the list.
   */
  lemma {:induction false} TriggerEachPlaying(c: Client, labels: seq<string>, desired: Option<bool>, port: seq<Message>)
    requires forall l :: l in labels ==> l in c.tracks
    ensures var r := TriggerEach(c, labels, desired, port);
            && (desired.Some? ==> forall l :: l in labels ==> r.client.tracks[l].playing == desired.value)
            && (desired.None? ==> forall l :: l in c.tracks ==>
                  r.client.tracks[l].playing == (c.tracks[l].playing != Odd(multiset(labels)[l])))
    decreases |labels|
  {
    if labels != [] {
      var l := labels[0];
      var fired := Trigger(c.tracks[l], desired, port);
      var next := c.(tracks := c.tracks[l := fired.track]);
      assert forall x :: x in labels[1..] ==> x in labels;
      TriggerEachPlaying(next, labels[1..], desired, fired.port);
      var r := TriggerEach(next, labels[1..], desired, fired.port);
      assert r == TriggerEach(c, labels, desired, port);
      if desired.None? {
        forall x | x in c.tracks
          ensures r.client.tracks[x].playing == (c.tracks[x].playing != Odd(multiset(labels)[x]))
        {
          CountHead(labels, x);
          ParityStep(c.tracks[x].playing, next.tracks[x].playing, r.client.tracks[x].playing,
                     x == l, multiset(labels[1..])[x], multiset(labels)[x]);
        }
      }
    }
  }

  /**
   * The labels whose track switched state between `before` and `after` and
   * has a type that composes a message: the tracks that sent one.
   */
  function Sent(before: map<string, Track>, after: map<string, Track>): set<string>
  {
    set l | l in before && l in after && before[l].kind in KnownKinds && before[l].playing != after[l].playing
  }

  /**
   * Driving tracks to a state sends one message per track that was not in it
   * yet, a label listed twice sending at most once.
   */
  lemma {:induction false} TriggerEachForceSends(c: Client, labels: seq<string>, b: bool, port: seq<Message>)
    requires forall l :: l in labels ==> l in c.tracks
    ensures var r := TriggerEach(c, labels, Some(b), port);
            |r.port| == |port| + |Sent(c.tracks, r.client.tracks)|
    decreases |labels|
  {
    if labels == [] {
      assert Sent(c.tracks, c.tracks) == {};
    } else {
      var l := labels[0];
      var fired := Trigger(c.tracks[l], Some(b), port);
      var next := c.(tracks := c.tracks[l := fired.track]);
      assert forall x :: x in labels[1..] ==> x in labels;
      var r := TriggerEach(next, labels[1..], Some(b), fired.port);
      assert r == TriggerEach(c, labels, Some(b), port);
      TriggerEachForceSends(next, labels[1..], b, fired.port);
      TriggerEachPlaying(next, labels[1..], Some(b), fired.port);
      SentStep(c.tracks, fired.track, r.client.tracks, l, b);
    }
  }

  /** Driving one track to `b` ahead of the rest: it sent exactly when it switched and has a known type. */
  lemma SentStep(before: map<string, Track>, t: Track, after: map<string, Track>, l: string, b: bool)
    requires l in before && l in after && after[l].playing == b
    requires t.playing == b && t.kind == before[l].kind
    ensures |Sent(before, after)| ==
            |Sent(before[l := t], after)| + (if before[l].playing != b && before[l].kind in KnownKinds then 1 else 0)
  {
    if before[l].playing != b && before[l].kind in KnownKinds {
      assert Sent(before, after) == Sent(before[l := t], after) + {l};
    } else {
      assert Sent(before, after) == Sent(before[l := t], after);
    }
  }

  /** The types of a sequence of messages, in order. */
  function Kinds(ms: seq<Message>): (r: seq<string>)
    ensures |r| == |ms|
  {
    seq(|ms|, i requires 0 <= i < |ms| => ms[i].kind)
  }

  /** The types of the listed tracks, in list order, a label listed twice counting twice. */
  function KindsOf(labels: seq<string>, tracks: map<string, Track>): (r: seq<string>)
    requires forall l :: l in labels ==> l in tracks
    ensures |r| == |labels|
    ensures forall i :: 0 <= i < |labels| ==> r[i] == tracks[labels[i]].kind
  {
    seq(|labels|, i requires 0 <= i < |labels| => tracks[labels[i]].kind)
  }

  /**
   * Toggling tracks whose types all compose a message sends one message per
   * listed label: their types are the listed tracks' types, in list order.
   */
  lemma {:induction false} TriggerEachToggleSends(c: Client, labels: seq<string>, port: seq<Message>)
    requires forall l :: l in labels ==> l in c.tracks && c.tracks[l].kind in KnownKinds
    ensures var r := TriggerEach(c, labels, None, port);
            && |r.port| == |port| + |labels|
            && Kinds(r.port) == Kinds(port) + KindsOf(labels, c.tracks)
    decreases |labels|
  {
    if labels != [] {
      var l := labels[0];
      var fired := Trigger(c.tracks[l], None, port);
      var next := c.(tracks := c.tracks[l := fired.track]);
      assert forall x :: x in labels[1..] ==> x in labels;
      var r := TriggerEach(next, labels[1..], None, fired.port);
      assert r == TriggerEach(c, labels, None, port);
      TriggerEachToggleSends(next, labels[1..], fired.port);
      KindsOfUpdate(labels[1..], c.tracks, l, fired.track);
      KindsOfCons(labels, c.tracks);
      ToggleSendsStep(port, fired.port, r.port, c.tracks[l].kind,
                      KindsOf(labels[1..], next.tracks), KindsOf(labels[1..], c.tracks), KindsOf(labels, c.tracks));
    }
  }

  /** The head label's type, then the rest's. */
  lemma KindsOfCons(labels: seq<string>, tracks: map<string, Track>)
    requires labels != [] && forall l :: l in labels ==> l in tracks
    ensures KindsOf(labels, tracks) == [tracks[labels[0]].kind] + KindsOf(labels[1..], tracks)
  {
    assert forall x :: x in labels[1..] ==> x in labels;
  }

  /** Replacing a track by one of the same type changes no label's type. */
  lemma KindsOfUpdate(labels: seq<string>, tracks: map<string, Track>, l: string, t: Track)
    requires forall x :: x in labels ==> x in tracks
    requires l in tracks && t.kind == tracks[l].kind
    ensures KindsOf(labels, tracks[l := t]) == KindsOf(labels, tracks)
  {
  }

  /** The type of the head toggle's message, then those of the rest. */
  lemma ToggleSendsStep(port: seq<Message>, mid: seq<Message>, last: seq<Message>, k: string,
                        restNext: seq<string>, rest: seq<string>, all: seq<string>)
    requires |mid| == |port| + 1 && port <= mid && mid[|port|].kind == k
    requires Kinds(last) == Kinds(mid) + restNext
    requires restNext == rest && all == [k] + rest
    ensures Kinds(last) == Kinds(port) + all
  {
    assert Kinds(mid) == Kinds(port) + [k];
  }

  /**
   * The labels that driving the listed tracks to `b` sends for, in sending
   * order: the first occurrence of each label not in `done`, kept when its
   * track is not at `b` yet and has a type that composes a message. `done`
   * holds the labels already driven; a top-level call passes `{}`.
   */
  function Switching(labels: seq<string>, tracks: map<string, Track>, b: bool, done: set<string>): (r: seq<string>)
    requires forall l :: l in labels ==> l in tracks
    ensures forall l :: l in r ==> l in labels && l !in done
    ensures forall l :: l in r ==> tracks[l].playing != b && tracks[l].kind in KnownKinds
    ensures Distinct(r)
    decreases |labels|
  {
    if labels == [] then []
    else
      var l := labels[0];
      assert forall x :: x in labels[1..] ==> x in labels;
      if l in done then Switching(labels[1..], tracks, b, done)
      else
        var rest := Switching(labels[1..], tracks, b, done + {l});
        if tracks[l].playing != b && tracks[l].kind in KnownKinds then
          assert forall i :: 0 < i < |[l] + rest| ==> ([l] + rest)[i] == rest[i - 1];
          [l] + rest
        else rest
  }

  /** The types of a concatenation of label lists. */
  lemma KindsOfAppend(xs: seq<string>, ys: seq<string>, tracks: map<string, Track>)
    requires forall l :: l in xs ==> l in tracks
    requires forall l :: l in ys ==> l in tracks
    ensures KindsOf(xs + ys, tracks) == KindsOf(xs, tracks) + KindsOf(ys, tracks)
  {
  }

  /** The first listed label, then the rest with it counted as driven. */
  lemma SwitchingCons(labels: seq<string>, tracks: map<string, Track>, b: bool, done: set<string>)
    requires labels != [] && forall l :: l in labels ==> l in tracks
    ensures var l := labels[0];
            Switching(labels, tracks, b, done) ==
              (if l !in done && tracks[l].playing != b && tracks[l].kind in KnownKinds then [l] else []) +
              Switching(labels[1..], tracks, b, done + {labels[0]})
  {
    if labels[0] in done {
      assert done + {labels[0]} == done;
    }
  }

  /** Driving one track to `b`: the type of the message it sends, if any. */
  lemma ForceOneKinds(t: Track, b: bool, port: seq<Message>)
    ensures var sends := t.playing != b && t.kind in KnownKinds;
            Kinds(Trigger(t, Some(b), port).port) == Kinds(port) + (if sends then [t.kind] else [])
  {
    var fired := Trigger(t, Some(b), port);
    if t.playing != b && t.kind in KnownKinds {
      assert fired.port == port[..|port|] + [fired.port[|port|]];
    }
  }

  /**
   * The listed tracks of `current`, seen against the state `tracks` before
   * any was driven: same types, those in `done` already at `b`, the others
   * as they were.
   */
  predicate DrivenSoFar(current: map<string, Track>, labels: seq<string>, tracks: map<string, Track>,
                        done: set<string>, b: bool)
  {
    forall l :: l in labels ==>
      && l in current && l in tracks
      && current[l].kind == tracks[l].kind
      && current[l].playing == (if l in done then b else tracks[l].playing)
  }

  /** Driving the head track to `b` keeps the rest of the list in step. */
  lemma DrivenSoFarNext(current: map<string, Track>, labels: seq<string>, tracks: map<string, Track>,
                        done: set<string>, b: bool, t: Track)
    requires labels != [] && DrivenSoFar(current, labels, tracks, done, b)
    requires t.playing == b && t.kind == current[labels[0]].kind
    ensures DrivenSoFar(current[labels[0] := t], labels[1..], tracks, done + {labels[0]}, b)
    ensures labels[0] in current && labels[0] in tracks
    ensures (labels[0] in done ==> current[labels[0]].playing == b)
    ensures (labels[0] !in done ==> current[labels[0]].playing == tracks[labels[0]].playing)
    ensures current[labels[0]].kind == tracks[labels[0]].kind
  {
    assert labels[0] in labels;
    assert forall x :: x in labels[1..] ==> x in labels;
  }

  /**
   * Driving tracks to `b`, generalised: `tracks` is the state before any of
   * them was driven, and the labels in `done` are those already at `b`.
   */
  lemma {:induction false} TriggerEachForceKinds(c: Client, labels: seq<string>, b: bool, port: seq<Message>,
                                                 tracks: map<string, Track>, done: set<string>)
    requires forall l :: l in labels ==> l in c.tracks
    requires DrivenSoFar(c.tracks, labels, tracks, done, b)
    ensures forall l :: l in labels ==> l in tracks
    ensures Kinds(TriggerEach(c, labels, Some(b), port).port) ==
            Kinds(port) + KindsOf(Switching(labels, tracks, b, done), tracks)
    decreases |labels|
  {
    if labels != [] {
      var l := labels[0];
      var t := c.tracks[l];
      var fired := Trigger(t, Some(b), port);
      var next := c.(tracks := c.tracks[l := fired.track]);
      DrivenSoFarNext(c.tracks, labels, tracks, done, b, fired.track);
      assert forall x :: x in labels[1..] ==> x in labels;
      var r := TriggerEach(next, labels[1..], Some(b), fired.port);
      assert r == TriggerEach(c, labels, Some(b), port);
      TriggerEachForceKinds(next, labels[1..], b, fired.port, tracks, done + {l});
      var head := if t.playing != b && t.kind in KnownKinds then [l] else [];
      var rest := Switching(labels[1..], tracks, b, done + {l});
      SwitchingCons(labels, tracks, b, done);
      ForceOneKinds(t, b, port);
      KindsOfAppend(head, rest, tracks);
      KindsOfHead(head, l, tracks);
      SeqStep(Kinds(port), Kinds(fired.port), Kinds(r.port), KindsOf(head, tracks), KindsOf(rest, tracks),
              KindsOf(Switching(labels, tracks, b, done), tracks));
    }
  }

  /** The types of an empty or one-label list. */
  lemma KindsOfHead(head: seq<string>, l: string, tracks: map<string, Track>)
    requires head == [] || head == [l]
    requires l in tracks
    ensures KindsOf(head, tracks) == if head == [] then [] else [tracks[l].kind]
  {
  }

  /** What a step appends, then what the rest appends. */
  lemma SeqStep<T>(start: seq<T>, mid: seq<T>, last: seq<T>, step: seq<T>, rest: seq<T>, all: seq<T>)
    requires mid == start + step && last == mid + rest && all == step + rest
    ensures last == start + all
  {
  }

  /**
   * Driving tracks to `b` sends, in list order, one message for the first
   * occurrence of each listed track that was not at `b` yet and has a type
   * that composes one, of that track's type.
   */
  lemma TriggerEachForceOrder(c: Client, labels: seq<string>, b: bool, port: seq<Message>)
    requires forall l :: l in labels ==> l in c.tracks
    ensures Kinds(TriggerEach(c, labels, Some(b), port).port) ==
            Kinds(port) + KindsOf(Switching(labels, c.tracks, b, {}), c.tracks)
  {
    assert DrivenSoFar(c.tracks, labels, c.tracks, {}, b);
    TriggerEachForceKinds(c, labels, b, port, c.tracks, {});
  }

  /** The labels of `order` that are not in `chosen`, in order. */
  function Outside(order: seq<string>, chosen: seq<string>): (r: seq<string>)
    ensures forall l :: l in r <==> l in order && l !in chosen
    ensures SubseqOf(r, order)
    decreases |order|
  {
    if order == [] then []
    else if order[0] in chosen then Outside(order[1..], chosen)
    else [order[0]] + Outside(order[1..], chosen)
  }

  /**
   * What the two passes of a scene event leave behind, from what each pass
   * promises: the first drives the chosen tracks to `b`, the second drives
   * every other track to `!b` and leaves the chosen ones alone.
   */
  lemma TwoPasses(c: Client, first: Client, second: Client, chosen: seq<string>, rest: seq<string>, b: bool)
    requires forall l :: l in c.order <==> l in c.tracks
    requires first.tracks.Keys == c.tracks.Keys && second.tracks.Keys == c.tracks.Keys
    requires forall l :: l in rest <==> l in c.order && l !in chosen
    requires forall l :: l in chosen ==> l in c.tracks && first.tracks[l].playing == b
    requires forall l :: l in first.tracks && l !in rest ==> second.tracks[l] == first.tracks[l]
    requires forall l :: l in rest ==> second.tracks[l].playing == !b
    requires forall l :: l in c.tracks ==> SameConfig(c.tracks[l], first.tracks[l])
    requires forall l :: l in first.tracks ==> SameConfig(first.tracks[l], second.tracks[l])
    ensures forall l :: l in c.tracks ==> SameConfig(c.tracks[l], second.tracks[l])
    ensures forall l :: l in c.tracks ==> second.tracks[l].playing == (if l in chosen then b else !b)
  {
  }

  /**
   * The tracks that sent during a scene event are those that sent in the first
   * pass together with those that sent in the second: no track switches in both.
   */
  lemma SentSplit(c: map<string, Track>, first: map<string, Track>, second: map<string, Track>,
                  chosen: seq<string>, rest: seq<string>)
    requires first.Keys == c.Keys && second.Keys == c.Keys
    requires forall l :: l in rest ==> l !in chosen
    requires forall l :: l in c && l !in chosen ==> l in rest && first[l] == c[l]
    requires forall l :: l in first && l !in rest ==> second[l] == first[l]
    requires forall l :: l in c ==> c[l].kind == first[l].kind
    ensures |Sent(c, second)| == |Sent(c, first)| + |Sent(first, second)|
  {
    assert Sent(c, second) == Sent(c, first) + Sent(first, second);
    assert Sent(c, first) * Sent(first, second) == {};
  }

  /**
   * The labels a scene event's two passes send for, in sending order: the
   * resolved tracks switching to `b`, then the client's other tracks, in
   * creation order, switching to `!b`.
   */
  function SceneSenders(c: Client, resolved: seq<string>, b: bool): (r: seq<string>)
    requires WellFormed(c)
    requires forall l :: l in resolved ==> l in c.tracks
    ensures forall l :: l in r ==> l in c.tracks
  {
    Switching(resolved, c.tracks, b, {}) + Switching(Outside(c.order, resolved), c.tracks, !b, {})
  }

  /**
   * The two passes of a scene event: `trigger(b)` on each resolved track, then
   * `trigger(not b)` on every other track of the client.
   */
  function DriveScene(c: Client, resolved: seq<string>, b: bool, port: seq<Message>): (r: Applied)
    requires WellFormed(c)
    requires forall l :: l in resolved ==> l in c.tracks
    ensures WellFormed(r.client)
    ensures r.client.name == c.name && r.client.toggleRecord == c.toggleRecord && r.client.order == c.order
    ensures r.client.tracks.Keys == c.tracks.Keys
    ensures port <= r.port
    ensures |r.port| == |port| + |Sent(c.tracks, r.client.tracks)|
  {
    var first := TriggerEach(c, resolved, Some(b), port);
    var rest := Outside(c.order, resolved);
    var second := TriggerEach(first.client, rest, Some(!b), first.port);
    TriggerEachForceSends(c, resolved, b, port);
    TriggerEachForceSends(first.client, rest, !b, first.port);
    SentSplit(c.tracks, first.client.tracks, second.client.tracks, resolved, rest);
    second
  }

  /**
   * The messages of a scene event's two passes, in order: one per label of
   * `SceneSenders`, of that track's type.
   */
  lemma DriveSceneOrder(c: Client, resolved: seq<string>, b: bool, port: seq<Message>)
    requires WellFormed(c)
    requires forall l :: l in resolved ==> l in c.tracks
    ensures Kinds(DriveScene(c, resolved, b, port).port) == Kinds(port) + KindsOf(SceneSenders(c, resolved, b), c.tracks)
  {
    var first := TriggerEach(c, resolved, Some(b), port);
    var rest := Outside(c.order, resolved);
    var second := TriggerEach(first.client, rest, Some(!b), first.port);
    assert DriveScene(c, resolved, b, port) == second;
    TriggerEachForceOrder(c, resolved, b, port);
    assert DrivenSoFar(first.client.tracks, rest, c.tracks, {}, !b);
    TriggerEachForceKinds(first.client, rest, !b, first.port, c.tracks, {});
    var s1 := Switching(resolved, c.tracks, b, {});
    var s2 := Switching(rest, c.tracks, !b, {});
    KindsOfAppend(s1, s2, c.tracks);
    assert SceneSenders(c, resolved, b) == s1 + s2;
    SeqStep(Kinds(port), Kinds(first.port), Kinds(second.port), KindsOf(s1, c.tracks), KindsOf(s2, c.tracks),
            KindsOf(SceneSenders(c, resolved, b), c.tracks));
  }

  /** After a scene event's two passes, the resolved tracks are at `b` and all others at `!b`. */
  lemma DriveSceneRule(c: Client, resolved: seq<string>, b: bool, port: seq<Message>)
    requires WellFormed(c)
    requires forall l :: l in resolved ==> l in c.tracks
    ensures var r := DriveScene(c, resolved, b, port);
            && (forall l :: l in c.tracks ==> SameConfig(c.tracks[l], r.client.tracks[l]))
            && (forall l :: l in c.tracks ==> r.client.tracks[l].playing == (if l in resolved then b else !b))
  {
    var first := TriggerEach(c, resolved, Some(b), port);
    var rest := Outside(c.order, resolved);
    var second := TriggerEach(first.client, rest, Some(!b), first.port);
    TriggerEachPlaying(c, resolved, Some(b), port);
    TriggerEachPlaying(first.client, rest, Some(!b), first.port);
    TwoPasses(c, first.client, second.client, resolved, rest, b);
  }

  /**
   * One event, as `process_events` handles it. A `None` track list forces the
   * desired state to false. The track list is resolved first, so an unknown
   * label fails before any track is triggered. A toggle event toggles each
   * listed track; a scene event drives the listed tracks to the desired state
   * and every other track of the client to its opposite.
   */
  function ApplyEvent(c: Client, e: Event, port: seq<Message>): (r: Result<Applied, Error>)
    requires WellFormed(c)
    ensures r.Success? <==> e.tracklist.None? || forall l :: l in e.tracklist.value ==> l in c.tracks
    ensures r.Failure? ==>
      && r.error.NoSuchTrack?
      && r.error.client == c.name
      && FirstUnknown(e.tracklist.value, c.tracks, r.error.trackLabel)
    ensures r.Success? ==>
      && WellFormed(r.value.client)
      && r.value.client.name == c.name
      && r.value.client.toggleRecord == c.toggleRecord
      && r.value.client.order == c.order
      && r.value.client.tracks.Keys == c.tracks.Keys
      && (forall l :: l in c.tracks ==> SameConfig(c.tracks[l], r.value.client.tracks[l]))
      && port <= r.value.port
    ensures r.Success? && e.tracklist.None? ==>
      forall l :: l in c.tracks ==> !r.value.client.tracks[l].playing
    ensures r.Success? && e.tracklist.Some? && e.desired.None? ==>
      forall l :: l in c.tracks ==>
        r.value.client.tracks[l].playing == (c.tracks[l].playing != Odd(multiset(e.tracklist.value)[l]))
    ensures r.Success? && e.tracklist.Some? && e.desired.Some? ==>
      forall l :: l in c.tracks ==>
        r.value.client.tracks[l].playing == (if l in e.tracklist.value then e.desired.value else !e.desired.value)
  {
    var desired := if e.tracklist.None? then Some(false) else e.desired;
    match Resolve(c, e.tracklist)
    case Failure(err) => Failure(err)
    case Success(resolved) =>
      if desired.None? then
        TriggerEachPlaying(c, resolved, None, port);
        Success(TriggerEach(c, resolved, None, port))
      else
        DriveSceneRule(c, resolved, desired.value, port);
        Success(DriveScene(c, resolved, desired.value, port))
  }

  /**
   * The messages an event sends. A scene event, or one for all tracks, sends
   * one message per track that switched state and has a type that composes
   * one: first for the listed tracks, then for the client's other tracks in
   * creation order, each of its track's type. A toggle event whose tracks all
   * have such types sends one message per listed label, of that track's type,
   * in list order.
   */
  lemma ApplyEventSends(c: Client, e: Event, port: seq<Message>)
    requires WellFormed(c)
    requires ApplyEvent(c, e, port).Success?
    ensures var r := ApplyEvent(c, e, port).value;
            && (e.tracklist.None? || e.desired.Some? ==>
                  |r.port| == |port| + |Sent(c.tracks, r.client.tracks)|)
            && (e.tracklist.None? ==>
                  Kinds(r.port) == Kinds(port) + KindsOf(SceneSenders(c, c.order, false), c.tracks))
            && (e.tracklist.Some? && e.desired.Some? ==>
                  Kinds(r.port) == Kinds(port) + KindsOf(SceneSenders(c, e.tracklist.value, e.desired.value), c.tracks))
            && (e.tracklist.Some? && e.desired.None? &&
                (forall l :: l in e.tracklist.value ==> c.tracks[l].kind in KnownKinds) ==>
                  && |r.port| == |port| + |e.tracklist.value|
                  && Kinds(r.port) == Kinds(port) + KindsOf(e.tracklist.value, c.tracks))
  {
    if e.tracklist.None? {
      DriveSceneOrder(c, c.order, false, port);
    } else if e.desired.Some? {
      DriveSceneOrder(c, e.tracklist.value, e.desired.value, port);
    } else if forall l :: l in e.tracklist.value ==> c.tracks[l].kind in KnownKinds {
      TriggerEachToggleSends(c, e.tracklist.value, port);
    }
  }

  /** Triggering tracks that are already in the desired state changes nothing and sends nothing. */
  lemma {:induction false} TriggerEachSettled(c: Client, labels: seq<string>, b: bool, port: seq<Message>)
    requires WellFormed(c)
    requires forall l :: l in labels ==> l in c.tracks && c.tracks[l].playing == b
    ensures TriggerEach(c, labels, Some(b), port) == Applied(c, port)
    decreases |labels|
  {
    if labels != [] {
      var l := labels[0];
      var fired := Trigger(c.tracks[l], Some(b), port);
      assert fired.track == c.tracks[l];
      assert c.tracks[l := fired.track] == c.tracks;
      assert forall x :: x in labels[1..] ==> x in labels;
      TriggerEachSettled(c, labels[1..], b, port);
    }
  }

  /**
   * Scene events are idempotent: applying the same all-or-nothing scene event
   * a second time leaves the client as it was and sends no message.
   */
  lemma SceneEventIdempotent(c: Client, e: Event, port: seq<Message>)
    requires WellFormed(c)
    requires e.tracklist.None? || e.desired.Some?
    requires ApplyEvent(c, e, port).Success?
    ensures var once := ApplyEvent(c, e, port).value;
            ApplyEvent(once.client, e, once.port) == Success(once)
  {
    var once := ApplyEvent(c, e, port).value;
    var c1 := once.client;
    var b := if e.tracklist.None? then false else e.desired.value;
    var resolved := Resolve(c1, e.tracklist).value;
    assert forall l :: l in resolved ==> c1.tracks[l].playing == b;
    TriggerEachSettled(c1, resolved, b, once.port);
    var rest := Outside(c1.order, resolved);
    assert forall l :: l in rest ==> l in c1.tracks && c1.tracks[l].playing == !b;
    TriggerEachSettled(c1, rest, !b, once.port);
  }

  /** Toggling the same track list twice restores the client exactly. */
  lemma ToggleEventTwiceRestores(c: Client, labels: seq<string>, port: seq<Message>)
    requires WellFormed(c)
    requires forall l :: l in labels ==> l in c.tracks
    ensures var e := Event(Some(labels), None);
            var once := ApplyEvent(c, e, port).value;
            var twice := ApplyEvent(once.client, e, once.port);
            twice.Success? && twice.value.client == c
  {
    var e := Event(Some(labels), None);
    var r1 := ApplyEvent(c, e, port);
    assert r1.Success?;
    var once := r1.value;
    var r2 := ApplyEvent(once.client, e, once.port);
    assert r2.Success? by {
      assert forall l :: l in labels ==> l in once.client.tracks;
    }
    TogglesCancel(c, once.client, r2.value.client, multiset(labels));
  }

  /**
   * Two toggle passes over the same multiset of labels cancel out: each track
   * has flipped an even number of times and is back at its defaults.
   */
  lemma TogglesCancel(c: Client, once: Client, twice: Client, m: multiset<string>)
    requires WellFormed(c) && WellFormed(twice)
    requires twice.name == c.name && twice.toggleRecord == c.toggleRecord && twice.order == c.order
    requires once.tracks.Keys == c.tracks.Keys && twice.tracks.Keys == c.tracks.Keys
    requires forall l :: l in c.tracks ==> SameConfig(c.tracks[l], once.tracks[l])
    requires forall l :: l in c.tracks ==> SameConfig(once.tracks[l], twice.tracks[l])
    requires forall l :: l in c.tracks ==> once.tracks[l].playing == (c.tracks[l].playing != Odd(m[l]))
    requires forall l :: l in c.tracks ==> twice.tracks[l].playing == (once.tracks[l].playing != Odd(m[l]))
    ensures twice == c
  {
    forall l | l in c.tracks
      ensures twice.tracks[l] == c.tracks[l]
    {
      DefaultsDetermine(c.tracks[l], twice.tracks[l]);
    }
    assert twice.tracks == c.tracks;
  }

  /** `queue_trackstate_playing`: the labels of the playing tracks, in dictionary order. */
  function PlayingLabels(order: seq<string>, tracks: map<string, Track>): (r: seq<string>)
    requires forall l :: l in order ==> l in tracks
    ensures forall l :: l in r <==> l in order && tracks[l].playing
    ensures Distinct(order) ==> Distinct(r) && SubseqOf(r, order)
    decreases |order|
  {
    if order == [] then []
    else
      var rest := PlayingLabels(order[1..], tracks);
      if tracks[order[0]].playing then
        assert order[0] !in order[1..] ==> order[0] !in rest;
        assert ([order[0]] + rest)[1..] == rest;
        [order[0]] + rest
      else
        assert Distinct(order) && rest != [] ==> rest[0] in order[1..] && rest[0] != order[0];
        rest
  }

  /** Exactly the playing tracks are published, each once. */
  function TrackstatePlaying(c: Client): (r: seq<string>)
    requires WellFormed(c)
    ensures forall l :: l in r <==> l in c.tracks && c.tracks[l].playing
    ensures Distinct(r) && SubseqOf(r, c.order)
  {
    PlayingLabels(c.order, c.tracks)
  }

  /** What `queue_config_dict` publishes for a client. */
  datatype ClientConfig = ClientConfig(name: string, kind: string, tracks: map<string, TrackConfig>)

  /** `queue_config_dict`: name, type "midi" and each track's configuration, at its default data. */
  function ConfigDict(c: Client): (r: ClientConfig)
    requires WellFormed(c)
    ensures r.name == c.name && r.kind == "midi"
    ensures r.tracks.Keys == c.tracks.Keys
    ensures forall l :: l in r.tracks ==>
      r.tracks[l] == TrackConfig(l, c.tracks[l].kind, c.tracks[l].defaultData)
  {
    ClientConfig(c.name, "midi", map l | l in c.tracks :: ConfigOf(c.tracks[l]))
  }

  /**
   * The `toggle_record` command: arms the track and marks it stopped. An
   * unknown label is ignored.
   */
  function ToggleRecord(c: Client, trackName: string): (r: Client)
    requires WellFormed(c)
    ensures WellFormed(r)
    ensures trackName !in c.tracks ==> r == c
    ensures trackName in c.tracks ==>
      && r.name == c.name && r.order == c.order && r.toggleRecord == c.toggleRecord
      && r.tracks.Keys == c.tracks.Keys
      && r.tracks[trackName].toggleRecord
      && !r.tracks[trackName].playing
      && r.tracks[trackName] == c.tracks[trackName].(toggleRecord := true, playing := false)
      && (forall l :: l in c.tracks && l != trackName ==> r.tracks[l] == c.tracks[l])
  {
    if trackName in c.tracks then
      c.(tracks := c.tracks[trackName := c.tracks[trackName].(toggleRecord := true, playing := false)])
    else c
  }

  /** Commands a client worker receives; `Unrecognised` stands for any other key. */
  datatype ClientCommand =
    | CreateTrackCmd(trackName: string, attrs: TrackAttrs)
    | ListTracksCmd
    | QueueConfigDictCmd
    | QueueTrackstatePlayingCmd
    | ToggleRecordCmd(trackName: string)
    | Unrecognised(key: string)

  /** What a worker publishes on its response queues. */
  datatype Reply =
    | ConfigReply(config: ClientConfig)
    | PlayingReply(labels: seq<string>)
    | EmptyTrackListing

  /**
   * A client worker: its client, pending commands and events, the port it has
   * sent on, what it published, the NoSuchTrack errors it logged, and the
   * uncaught fault that stopped it, if any.
   */
  datatype Worker = Worker(
    client: Client,
    commands: seq<ClientCommand>,
    events: seq<Event>,
    port: seq<Message>,
    replies: seq<Reply>,
    log: seq<Error>,
    halted: Option<Halt>)

  /**
   * One command. `list_tracks` calls `self.__dict__()`, but the client defines
   * no such method and the instance dictionary is not callable, so the
   * resulting TypeError stops the worker; so does a track without a type.
   */
  function Execute(w: Worker, cmd: ClientCommand): (r: Worker)
    requires WellFormed(w.client)
    ensures WellFormed(r.client)
    ensures r.commands == w.commands && r.events == w.events && r.port == w.port && r.log == w.log
    ensures cmd.Unrecognised? ==> r == w
    ensures cmd.ListTracksCmd? ==> r == w.(halted := Some(TypeErrorOn("self.__dict__()")))
    ensures cmd.QueueTrackstatePlayingCmd? ==>
      r == w.(replies := w.replies + [PlayingReply(TrackstatePlaying(w.client))])
    ensures cmd.QueueConfigDictCmd? ==>
      r == w.(replies := w.replies + [ConfigReply(ConfigDict(w.client))])
    ensures cmd.ToggleRecordCmd? ==> r == w.(client := ToggleRecord(w.client, cmd.trackName))
    ensures cmd.CreateTrackCmd? ==>
      match CreateTrack(w.client, cmd.trackName, cmd.attrs)
      case Success(c) => r == w.(client := c)
      case Failure(h) => r == w.(halted := Some(h))
  {
    match cmd
    case CreateTrackCmd(trackName, attrs) =>
      (match CreateTrack(w.client, trackName, attrs)
       case Success(c) => w.(client := c)
       case Failure(h) => w.(halted := Some(h)))
    case ListTracksCmd => w.(halted := Some(TypeErrorOn("self.__dict__()")))
    case QueueConfigDictCmd => w.(replies := w.replies + [ConfigReply(ConfigDict(w.client))])
    case QueueTrackstatePlayingCmd => w.(replies := w.replies + [PlayingReply(TrackstatePlaying(w.client))])
    case ToggleRecordCmd(trackName) => w.(client := ToggleRecord(w.client, trackName))
    case Unrecognised(_) => w
  }

  /** Whether a command stops a client worker: `list_tracks`, or a track without a type. */
  predicate Stops(cmd: ClientCommand)
  {
    cmd.ListTracksCmd? || (cmd.CreateTrackCmd? && cmd.attrs.kind.None?)
  }

  /** The fault a stopping command raises. */
  function Fault(cmd: ClientCommand): Halt
  {
    if cmd.ListTracksCmd? then TypeErrorOn("self.__dict__()") else KeyErrorOn("type")
  }

  /** The track names the commands create. */
  function Created(cmds: seq<ClientCommand>): set<string>
  {
    if cmds == [] then {}
    else (if cmds[0].CreateTrackCmd? then {cmds[0].trackName} else {}) + Created(cmds[1..])
  }

  /** How many of the commands queue a reply. */
  function ReplyRequests(cmds: seq<ClientCommand>): nat
  {
    if cmds == [] then 0
    else (if cmds[0].QueueConfigDictCmd? || cmds[0].QueueTrackstatePlayingCmd? then 1 else 0) + ReplyRequests(cmds[1..])
  }

  /** One command on a running worker: it stops the worker with its fault, or adds its track or reply. */
  lemma ExecuteEffect(w: Worker, cmd: ClientCommand)
    requires WellFormed(w.client) && w.halted.None?
    ensures var r := Execute(w, cmd);
            && (r.halted.None? <==> !Stops(cmd))
            && (r.halted.Some? ==> r.halted == Some(Fault(cmd)))
            && w.replies <= r.replies
            && w.client.tracks.Keys <= r.client.tracks.Keys
            && (r.halted.None? ==>
                 && r.client.tracks.Keys == w.client.tracks.Keys + (if cmd.CreateTrackCmd? then {cmd.trackName} else {})
                 && |r.replies| == |w.replies| + (if cmd.QueueConfigDictCmd? || cmd.QueueTrackstatePlayingCmd? then 1 else 0))
  {
  }

  /** `process_commands`: runs every pending command in order, unless one stops the worker. */
  function DrainCommands(w: Worker): (r: Worker)
    requires WellFormed(w.client)
    ensures WellFormed(r.client)
    ensures r.events == w.events && r.port == w.port && r.log == w.log
    ensures r.halted.None? ==> r.commands == []
    ensures w.halted.Some? ==> r == w
    ensures w.commands == [] ==> r == w
    decreases |w.commands|
  {
    if w.halted.Some? || w.commands == [] then w
    else DrainCommands(Execute(w.(commands := w.commands[1..]), w.commands[0]))
  }

  /** Draining a running worker stops it exactly when one of its queued commands is a stopping one. */
  lemma {:induction false} DrainCommandsStops(w: Worker)
    requires WellFormed(w.client) && w.halted.None?
    ensures DrainCommands(w).halted.None? <==> forall i :: 0 <= i < |w.commands| ==> !Stops(w.commands[i])
    decreases |w.commands|
  {
    var r := DrainCommands(w);
    if w.commands != [] {
      var w1 := Execute(w.(commands := w.commands[1..]), w.commands[0]);
      ExecuteEffect(w.(commands := w.commands[1..]), w.commands[0]);
      assert r == DrainCommands(w1);
      if w1.halted.None? {
        DrainCommandsStops(w1);
        if r.halted.Some? {
          var i :| 0 <= i < |w1.commands| && Stops(w1.commands[i]);
          assert w.commands[i + 1] == w1.commands[i];
        } else {
          forall i | 0 <= i < |w.commands| ensures !Stops(w.commands[i]) {
            if i > 0 { assert w.commands[i] == w1.commands[i - 1]; }
          }
        }
      }
    }
  }

  /**
   * How draining a running worker stops it: the first stopping command raises
   * its fault, and the commands behind it stay queued.
   */
  lemma {:induction false} DrainCommandsFault(w: Worker)
    requires WellFormed(w.client) && w.halted.None?
    ensures var r := DrainCommands(w);
            r.halted.Some? ==>
              exists i :: && 0 <= i < |w.commands| && Stops(w.commands[i])
                          && (forall j :: 0 <= j < i ==> !Stops(w.commands[j]))
                          && r.halted == Some(Fault(w.commands[i]))
                          && r.commands == w.commands[i + 1..]
    decreases |w.commands|
  {
    var r := DrainCommands(w);
    if w.commands != [] {
      var w1 := Execute(w.(commands := w.commands[1..]), w.commands[0]);
      ExecuteEffect(w.(commands := w.commands[1..]), w.commands[0]);
      assert r == DrainCommands(w1);
      if w1.halted.Some? {
        assert r.commands == w.commands[0 + 1..];
      } else if r.halted.Some? {
        DrainCommandsFault(w1);
        var i :| && 0 <= i < |w1.commands| && Stops(w1.commands[i])
                 && (forall j :: 0 <= j < i ==> !Stops(w1.commands[j]))
                 && r.halted == Some(Fault(w1.commands[i]))
                 && r.commands == w1.commands[i + 1..];
        assert w1.commands[i + 1..] == w.commands[i + 1 + 1..];
        assert w.commands[i + 1] == w1.commands[i];
        forall j | 0 <= j < i + 1 ensures !Stops(w.commands[j]) {
          if j > 0 { assert w.commands[j] == w1.commands[j - 1]; }
        }
      }
    }
  }

  /**
   * What draining leaves: tracks and replies are only ever added, and when
   * the worker does not stop, every queued track is created and every queued
   * reply published.
   */
  lemma {:induction false} DrainCommandsRuns(w: Worker)
    requires WellFormed(w.client) && w.halted.None?
    ensures var r := DrainCommands(w);
            && w.replies <= r.replies
            && w.client.tracks.Keys <= r.client.tracks.Keys
            && (r.halted.None? ==>
                 && r.client.tracks.Keys == w.client.tracks.Keys + Created(w.commands)
                 && |r.replies| == |w.replies| + ReplyRequests(w.commands))
    decreases |w.commands|
  {
    if w.commands != [] {
      var w1 := Execute(w.(commands := w.commands[1..]), w.commands[0]);
      ExecuteEffect(w.(commands := w.commands[1..]), w.commands[0]);
      assert DrainCommands(w) == DrainCommands(w1);
      if w1.halted.None? {
        DrainCommandsRuns(w1);
      }
    }
  }

  /**
   * `process_events`: applies pending events in order. A NoSuchTrack error
   * leaves `process_events`: the failing event is dropped and logged, the
   * events behind it stay queued, and the worker carries on.
   */
  function DrainEvents(w: Worker): (r: Worker)
    requires WellFormed(w.client)
    ensures WellFormed(r.client)
    ensures r.commands == w.commands && r.replies == w.replies && r.halted == w.halted
    ensures w.halted.Some? ==> r == w
    ensures w.halted.None? && w.events != [] ==> |r.events| < |w.events|
    ensures SuffixOf(r.events, w.events)
    ensures w.log <= r.log && |r.log| <= |w.log| + 1
    ensures r.events != [] && w.halted.None? ==> |r.log| == |w.log| + 1
    ensures r.client.name == w.client.name && r.client.tracks.Keys == w.client.tracks.Keys
    ensures w.halted.None? && w.events != [] && ApplyEvent(w.client, w.events[0], w.port).Failure? ==>
      r == w.(events := w.events[1..], log := w.log + [ApplyEvent(w.client, w.events[0], w.port).error])
    decreases |w.events|
  {
    if w.halted.Some? || w.events == [] then w
    else
      match ApplyEvent(w.client, w.events[0], w.port)
      case Failure(err) => w.(events := w.events[1..], log := w.log + [err])
      case Success(a) =>
        var r := DrainEvents(w.(client := a.client, port := a.port, events := w.events[1..]));
        SuffixOfTail(r.events, w.events);
        r
  }

  /** One pass of the worker loop: all commands first, then the events. */
  function Iteration(w: Worker): (r: Worker)
    requires WellFormed(w.client)
    ensures WellFormed(r.client)
    ensures w.halted.Some? ==> r == w
    ensures r.halted.None? ==> r.commands == []
    ensures r.halted.None? && r.events != [] ==> |r.log| == |w.log| + 1
    ensures r.halted.Some? ==> r.events == w.events && r.port == w.port
  {
    if w.halted.Some? then w else DrainEvents(DrainCommands(w))
  }

  /**
   * The events of a pass are applied to the client the commands left: what
   * they settle to after the pass is what they settle to from that client.
   */
  lemma IterationAfterCommands(w: Worker)
    requires WellFormed(w.client)
    ensures Iteration(w).halted.None? ==> Pending(Iteration(w)) == Pending(DrainCommands(w))
  {
    if w.halted.None? {
      DrainEventsKeepsPending(DrainCommands(w));
    }
  }

  /**
   * Commands go first: a track created by a command is there for an event
   * queued in the same pass, which toggles it on.
   */
  lemma CommandsBeforeEvents(name: string, attrs: TrackAttrs)
    requires attrs.kind.Some?
    ensures var w := Worker(NewClient(name, false), [CreateTrackCmd("t0", attrs)],
                            [Event(Some(["t0"]), None)], [], [], [], None);
            var r := Iteration(w);
            && r.log == [] && r.events == [] && r.commands == []
            && "t0" in r.client.tracks && r.client.tracks["t0"].playing
  {
    var w := Worker(NewClient(name, false), [CreateTrackCmd("t0", attrs)],
                    [Event(Some(["t0"]), None)], [], [], [], None);
    var c1 := CreateTrack(w.client, "t0", attrs).value;
    var w1 := DrainCommands(w);
    assert w1 == w.(commands := [], client := c1) by {
      var step := Execute(w.(commands := []), CreateTrackCmd("t0", attrs));
      assert step == w.(commands := [], client := c1);
      assert DrainCommands(step) == step;
    }
    assert "t0" in c1.tracks && !c1.tracks["t0"].playing;
    var e := Event(Some(["t0"]), None);
    var a := ApplyEvent(c1, e, []);
    assert a.Success?;
    assert multiset(["t0"])["t0"] == 1;
    assert a.value.client.tracks["t0"].playing;
    var w2 := w1.(client := a.value.client, port := a.value.port, events := []);
    assert DrainEvents(w1) == DrainEvents(w2);
    assert DrainEvents(w2) == w2;
  }

  /**
   * The net effect of a queue of events on a client once the loop has worked
   * through it: each event applied in turn, a failing one skipped.
   */
  function Settle(a: Applied, events: seq<Event>): (r: Applied)
    requires WellFormed(a.client)
    ensures WellFormed(r.client)
    ensures r.client.name == a.client.name && r.client.order == a.client.order
    ensures r.client.toggleRecord == a.client.toggleRecord
    ensures r.client.tracks.Keys == a.client.tracks.Keys
    decreases |events|
  {
    if events == [] then a
    else
      match ApplyEvent(a.client, events[0], a.port)
      case Failure(_) => Settle(a, events[1..])
      case Success(next) => Settle(next, events[1..])
  }

  /** What a worker's events come to when it stays alive: its client and port settled over the queue. */
  function Pending(w: Worker): (r: Applied)
    requires WellFormed(w.client)
  {
    Settle(Applied(w.client, w.port), w.events)
  }

  /** A pass of `process_events` never changes what the queue settles to. */
  lemma {:induction false} DrainEventsKeepsPending(w: Worker)
    requires WellFormed(w.client)
    ensures Pending(DrainEvents(w)) == Pending(w)
    decreases |w.events|
  {
    if w.halted.None? && w.events != [] {
      match ApplyEvent(w.client, w.events[0], w.port)
      case Failure(err) =>
      case Success(a) =>
        DrainEventsKeepsPending(w.(client := a.client, port := a.port, events := w.events[1..]));
    }
  }

  /** `n` passes of the worker loop. */
  function Run(w: Worker, n: nat): (r: Worker)
    requires WellFormed(w.client)
    ensures WellFormed(r.client)
    decreases n
  {
    if n == 0 then w else Run(Iteration(w), n - 1)
  }

  /** A pass of the loop with no commands pending: progress on the events, and the same settled result. */
  lemma IterationStep(w: Worker)
    requires WellFormed(w.client)
    requires w.halted.None? && w.commands == []
    ensures var w1 := Iteration(w);
            && w1.halted.None? && w1.commands == []
            && (w.events != [] ==> |w1.events| < |w.events|)
            && (w.events == [] ==> w1.events == [])
            && Pending(w1) == Pending(w)
  {
    assert DrainCommands(w) == w;
    DrainEventsKeepsPending(w);
  }

  /**
   * The loop survives NoSuchTrack: with no commands arriving, as many passes
   * as there are queued events work through the whole queue, the client and
   * port ending where the events settle them.
   */
  lemma {:induction false} RunSettles(w: Worker, n: nat)
    requires WellFormed(w.client)
    requires w.halted.None? && w.commands == []
    requires n >= |w.events|
    ensures Run(w, n).events == []
    ensures Run(w, n).client == Pending(w).client && Run(w, n).port == Pending(w).port
    decreases n, 1
  {
    if n == 0 {
      assert w.events == [];
      assert Pending(w) == Applied(w.client, w.port);
    } else {
      RunSettlesStep(w, n);
    }
  }

  /** The first of `n` passes keeps the pending result and shortens the queue; the rest settle it. */
  lemma {:induction false} RunSettlesStep(w: Worker, n: nat)
    requires WellFormed(w.client)
    requires w.halted.None? && w.commands == []
    requires 0 < n && n >= |w.events|
    ensures Run(w, n).events == []
    ensures Run(w, n).client == Pending(w).client && Run(w, n).port == Pending(w).port
    decreases n, 0
  {
    IterationStep(w);
    var w1 := Iteration(w);
    RunSettles(w1, n - 1);
    assert Run(w, n) == Run(w1, n - 1);
  }
}

=== FILE: common.dfy ===
/** Small shared vocabulary: optional values, results, and distinctness of sequences. */
module Common {

  /** A value that may be absent; stands for Python's `None`. */
  datatype Option<+T> = None | Some(value: T)
  {
    function GetOr(default: T): T
    {
      match this
      case Some(v) => v
      case None => default
    }
  }

  /** The outcome of an operation that may raise. */
  datatype Result<+T, +E> = Success(value: T) | Failure(error: E)

  /** No element of `s` occurs twice. */
  predicate Distinct<T(==)>(s: seq<T>)
  {
    forall i, j :: 0 <= i < j < |s| ==> s[i] != s[j]
  }

  /** `a` is what is left of `b` after dropping some leading elements. */
  predicate SuffixOf<T(==)>(a: seq<T>, b: seq<T>)
  {
    |a| <= |b| && a == b[|b| - |a|..]
  }

  /** A suffix of the tail is a suffix of the whole. */
  lemma SuffixOfTail<T>(a: seq<T>, b: seq<T>)
    requires b != [] && SuffixOf(a, b[1..])
    ensures SuffixOf(a, b)
  {
    assert b[1..][|b| - 1 - |a|..] == b[|b| - |a|..];
  }

  /**
   * `a` can be obtained from `b` by deleting elements, the rest keeping
   * their order. Matching each element of `a` at its earliest place in `b`
   * decides it.
   */
  predicate SubseqOf<T(==)>(a: seq<T>, b: seq<T>)
    decreases |b|
  {
    if a == [] then true
    else if b == [] then false
    else if a[0] == b[0] then SubseqOf(a[1..], b[1..])
    else SubseqOf(a, b[1..])
  }

  /** True when `n` is odd. */
  predicate Odd(n: nat)
  {
    n % 2 == 1
  }

  /** Parity alternates. */
  lemma OddStep(n: nat)
    ensures Odd(n + 1) == !Odd(n)
  {
  }

  /** The parity of a sum. */
  lemma OddSum(m: nat, n: nat)
    ensures Odd(m + n) == (Odd(m) != Odd(n))
  {
  }

  /** How often `l` occurs in a non-empty list: at its head, then in the rest. */
  lemma CountHead<T>(ts: seq<T>, l: T)
    requires ts != []
    ensures multiset(ts)[l] == (if l == ts[0] then 1 else 0) + multiset(ts[1..])[l]
  {
    assert ts == [ts[0]] + ts[1..];
  }

  /** A flip for the head occurrence, then one flip per remaining occurrence. */
  lemma ParityStep(before: bool, mid: bool, after: bool, head: bool, k: nat, n: nat)
    requires mid == (before != head) && after == (mid != Odd(k))
    requires n == (if head then 1 else 0) + k
    ensures after == (before != Odd(n))
  {
    if head {
      OddStep(k);
    }
  }
}

=== FILE: controllers.dfy ===
/**
 * A controller worker (src/py_midiplexer/controller.py): a signal map from
 * raw input signatures (the hex form of a MIDI message) to signal labels,
 * the polling step that turns input into `(controller, signal)` pairs, and
 * the command step. Reading the device is replaced by the raw input itself.
 */
module Controllers {
  import opened Common

  /** A signal label: one given by the user, or the number `register` picks. */
  datatype SignalLabel = Named(text: string) | Numbered(n: nat)

  datatype Controller = Controller(name: string, signalMap: map<string, SignalLabel>)

  /** A `(controller name, signal label)` pair on the orchestrator's signal queue. */
  datatype Signal = Signal(controller: string, signal: SignalLabel)

  /**
   * `check`: no input gives no signal; a mapped signature gives its label and
   * an unmapped one gives nothing.
   */
  function Check(c: Controller, input: Option<string>): (r: Option<SignalLabel>)
    ensures input.None? ==> r.None?
    ensures input.Some? && input.value !in c.signalMap ==> r.None?
    ensures r.Some? <==> input.Some? && input.value in c.signalMap
    ensures r.Some? ==> r.value in c.signalMap.Values && c.signalMap[input.value] == r.value
  {
    match input
    case None => None
    case Some(hex) => if hex in c.signalMap then Some(c.signalMap[hex]) else None
  }

  /** The label `register` assigns: the given one, or else the current size of the map. */
  function ChosenLabel(c: Controller, wanted: Option<SignalLabel>): SignalLabel
  {
    match wanted
    case Some(l) => l
    case None => Numbered(|c.signalMap|)
  }

  /**
   * `register`: maps the signature read from the device to the chosen label,
   * overwriting an earlier mapping of the same signature.
   */
  function Register(c: Controller, raw: string, wanted: Option<SignalLabel>): (r: Controller)
    ensures r.name == c.name
    ensures raw in r.signalMap && r.signalMap[raw] == ChosenLabel(c, wanted)
    ensures forall h :: h in c.signalMap && h != raw ==> h in r.signalMap && r.signalMap[h] == c.signalMap[h]
    ensures r.signalMap.Keys == c.signalMap.Keys + {raw}
    ensures |c.signalMap| <= |r.signalMap| <= |c.signalMap| + 1
    ensures raw in c.signalMap ==> |r.signalMap| == |c.signalMap|
  {
    var r := c.(signalMap := c.signalMap[raw := ChosenLabel(c, wanted)]);
    assert r.signalMap.Keys == c.signalMap.Keys + {raw};
    r
  }

  /** After registering a signature, checking that same input yields the new label. */
  lemma RegisterThenCheck(c: Controller, raw: string, wanted: Option<SignalLabel>)
    ensures Check(Register(c, raw, wanted), Some(raw)) == Some(ChosenLabel(c, wanted))
  {
  }

  /**
   * Automatic labels are the map size at the time, so they need not be unique:
   * re-registering a signature keeps the size, and the next new signature
   * receives the same number.
   */
  lemma AutoLabelsMayRepeat()
    ensures var c0 := Controller("c1", map[]);
            var c1 := Register(c0, "b07f7f", None);
            var c2 := Register(c1, "b07f7f", None);
            var c3 := Register(c2, "b0107f", None);
            c3.signalMap == map["b07f7f" := Numbered(1), "b0107f" := Numbered(1)]
  {
    var c1 := Register(Controller("c1", map[]), "b07f7f", None);
    assert c1.signalMap == map["b07f7f" := Numbered(0)];
    var c2 := Register(c1, "b07f7f", None);
    assert c2.signalMap == map["b07f7f" := Numbered(1)];
  }

  /** What `queue_config_dict` publishes for a controller. */
  datatype ControllerConfig = ControllerConfig(name: string, kind: string, signalMap: map<string, SignalLabel>)

  /**
   * Commands a controller worker receives. `RegisterCmd` carries, besides the
   * optional label, the signature that the blocking read returns.
   */
  datatype ControllerCommand =
    | RegisterCmd(wanted: Option<SignalLabel>, raw: string)
    | QueueConfigDictCmd
    | Unrecognised(key: string)

  /** A controller worker: its controller, pending commands, the signal queue and published configs. */
  datatype ControllerWorker = ControllerWorker(
    controller: Controller,
    commands: seq<ControllerCommand>,
    signals: seq<Signal>,
    configs: seq<ControllerConfig>)

  /** One command: `register` and `queue_config_dict`; any other key is ignored. */
  function Execute(w: ControllerWorker, cmd: ControllerCommand): (r: ControllerWorker)
    ensures r.commands == w.commands && r.signals == w.signals
    ensures cmd.Unrecognised? ==> r == w
    ensures cmd.QueueConfigDictCmd? ==>
      && r.controller == w.controller
      && r.configs == w.configs + [ControllerConfig(w.controller.name, "midi", w.controller.signalMap)]
    ensures cmd.RegisterCmd? ==>
      && r.configs == w.configs
      && r.controller == Register(w.controller, cmd.raw, cmd.wanted)
  {
    match cmd
    case RegisterCmd(wanted, raw) => w.(controller := Register(w.controller, raw, wanted))
    case QueueConfigDictCmd =>
      w.(configs := w.configs + [ControllerConfig(w.controller.name, "midi", w.controller.signalMap)])
    case Unrecognised(_) => w
  }

  /** The signatures the commands register. */
  function Registered(cmds: seq<ControllerCommand>): set<string>
  {
    if cmds == [] then {}
    else (if cmds[0].RegisterCmd? then {cmds[0].raw} else {}) + Registered(cmds[1..])
  }

  /** How many of the commands ask for the configuration. */
  function ConfigRequests(cmds: seq<ControllerCommand>): nat
  {
    if cmds == [] then 0 else (if cmds[0].QueueConfigDictCmd? then 1 else 0) + ConfigRequests(cmds[1..])
  }

  /**
   * `process_commands`: every pending command, in order. Every registered
   * signature ends up mapped, every other one keeps its label, and one
   * `midi` configuration of this controller is published per request.
   */
  function DrainCommands(w: ControllerWorker): (r: ControllerWorker)
    ensures r.commands == [] && r.signals == w.signals
    ensures r.controller.name == w.controller.name
    ensures r.controller.signalMap.Keys == w.controller.signalMap.Keys + Registered(w.commands)
    ensures forall h :: h in w.controller.signalMap && h !in Registered(w.commands) ==>
              r.controller.signalMap[h] == w.controller.signalMap[h]
    ensures w.configs <= r.configs
    ensures |r.configs| == |w.configs| + ConfigRequests(w.commands)
    ensures forall i :: |w.configs| <= i < |r.configs| ==>
              r.configs[i].name == w.controller.name && r.configs[i].kind == "midi"
    decreases |w.commands|
  {
    if w.commands == [] then w
    else DrainCommands(Execute(w.(commands := w.commands[1..]), w.commands[0]))
  }

  /** `process_signals`: queues `(name, signal)` exactly when `check` finds a signal. */
  function ProcessSignals(w: ControllerWorker, input: Option<string>): (r: ControllerWorker)
    ensures r.controller == w.controller && r.commands == w.commands && r.configs == w.configs
    ensures input.Some? && input.value in w.controller.signalMap ==>
      r.signals == w.signals + [Signal(w.controller.name, w.controller.signalMap[input.value])]
    ensures input.None? || input.value !in w.controller.signalMap ==> r.signals == w.signals
  {
    match Check(w.controller, input)
    case Some(l) => w.(signals := w.signals + [Signal(w.controller.name, l)])
    case None => w
  }

  /** One pass of the controller loop: commands first, then one poll of the device. */
  function Iteration(w: ControllerWorker, input: Option<string>): (r: ControllerWorker)
    ensures r.commands == []
    ensures w.signals <= r.signals && |r.signals| <= |w.signals| + 1
  {
    ProcessSignals(DrainCommands(w), input)
  }

  /**
   * A signature registered by a command in a pass is recognised by the poll
   * of that same pass.
   */
  lemma RegisterBeforePoll(c: Controller, raw: string)
    ensures var w := ControllerWorker(c, [RegisterCmd(Some(Named("go")), raw)], [], []);
            Iteration(w, Some(raw)).signals == [Signal(c.name, Named("go"))]
  {
    var w := ControllerWorker(c, [RegisterCmd(Some(Named("go")), raw)], [], []);
    var w1 := Execute(w.(commands := []), w.commands[0]);
    assert DrainCommands(w) == DrainCommands(w1) == w1;
  }
}

=== FILE: errors.dfy ===
/**
 * The exceptions of the router (src/py_midiplexer/exceptions.py) and the
 * Python runtime faults that stop a worker process because nothing catches them.
 */
module Errors {

  /** The router's own exceptions. All share the base class that prefixes "Error: ". */
  datatype Error =
    | NoSuchTrack(client: string, trackLabel: string)
    | NoSuchSignal(controller: string, signal: string)
    | NothingToDo

  /** The fixed text before the track label in a NoSuchTrack message. */
  const TrackLead: string := "Error: No track matching label '"
  /** The fixed text before the signal label in a NoSuchSignal message. */
  const SignalLead: string := "Error: No signal matching label '"

  /**
   * The final `msg` of an exception: the base class puts "Error: " in front of
   * the subclass text. The label a message is about follows its lead text, and
   * the client or controller closes it, quoted, before the final full stop.
   */
  function Message(e: Error): (r: string)
    ensures |r| >= 7 && r[..7] == "Error: "
    ensures e.NoSuchTrack? ==>
      && |r| == |TrackLead| + |e.trackLabel| + |"' for client '"| + |e.client| + 2
      && r[..|TrackLead|] == TrackLead
      && r[|TrackLead|..|TrackLead| + |e.trackLabel|] == e.trackLabel
      && r[|TrackLead| + |e.trackLabel|..|r| - |e.client| - 2] == "' for client '"
      && r[|r| - |e.client| - 2..] == e.client + "'."
    ensures e.NoSuchSignal? ==>
      && |r| == |SignalLead| + |e.signal| + |"' for controller '"| + |e.controller| + 2
      && r[..|SignalLead|] == SignalLead
      && r[|SignalLead|..|SignalLead| + |e.signal|] == e.signal
      && r[|SignalLead| + |e.signal|..|r| - |e.controller| - 2] == "' for controller '"
      && r[|r| - |e.controller| - 2..] == e.controller + "'."
    ensures e.NothingToDo? ==> r == "Error: Nothing to do."
  {
    match e
    case NoSuchTrack(c, t) =>
      var r := TrackLead + t + "' for client '" + c + "'.";
      assert r == TrackLead + t + ("' for client '" + c + "'.");
      assert r[..|TrackLead|] == TrackLead;
      assert r[|TrackLead|..|TrackLead| + |t|] == t;
      assert r == (TrackLead + t) + "' for client '" + (c + "'.");
      assert r == (TrackLead + t + "' for client '") + (c + "'.");
      r
    case NoSuchSignal(c, s) =>
      var r := SignalLead + s + "' for controller '" + c + "'.";
      assert r == SignalLead + s + ("' for controller '" + c + "'.");
      assert r[..|SignalLead|] == SignalLead;
      assert r[|SignalLead|..|SignalLead| + |s|] == s;
      assert r == (SignalLead + s) + "' for controller '" + (c + "'.");
      assert r == (SignalLead + s + "' for controller '") + (c + "'.");
      r
    case NothingToDo =>
      "Error: Nothing to do."
  }

  /** The kind of an exception can be read back from its message. */
  lemma MessageDeterminesKind(e1: Error, e2: Error)
    requires Message(e1) == Message(e2)
    ensures e1.NoSuchTrack? <==> e2.NoSuchTrack?
    ensures e1.NoSuchSignal? <==> e2.NoSuchSignal?
    ensures e1.NothingToDo? <==> e2.NothingToDo?
  {
    assert Message(e1)[10] == Message(e2)[10];
    assert Message(e1)[9] == Message(e2)[9];
    KindMark(e1);
    KindMark(e2);
  }

  /** Characters 9 and 10 of a message tell the three kinds apart. */
  lemma KindMark(e: Error)
    ensures e.NoSuchTrack? ==> Message(e)[9] == ' ' && Message(e)[10] == 't'
    ensures e.NoSuchSignal? ==> Message(e)[9] == ' ' && Message(e)[10] == 's'
    ensures e.NothingToDo? ==> Message(e)[9] == 't'
  {
    var m := Message(e);
    if e.NoSuchTrack? {
      assert m[..|TrackLead|] == TrackLead;
      assert m[10] == m[..|TrackLead|][10];
    } else if e.NoSuchSignal? {
      assert m[..|SignalLead|] == SignalLead;
      assert m[10] == m[..|SignalLead|][10];
    }
  }

  /**
   * A Python exception nobody catches: it ends the worker process that raised it.
   * `what` names the key, the attribute or the expression involved.
   */
  datatype Halt =
    | KeyErrorOn(what: string)
    | TypeErrorOn(what: string)
    | AttributeErrorOn(what: string)
}

=== FILE: legacy_clients.dfy ===
/**
 * The older client worker (src/py_midiplexer/client.py). It shares the track
 * and event vocabulary of the newer one but does not stamp a record flag,
 * understands only `create_track` and `list_tracks`, and its scene branch
 * iterates the track dictionary's keys (strings) where it means the tracks.
 */
module LegacyClients {
  import opened Common
  import opened Errors
  import opened Tracks
  import opened Clients

  /** `create_track`: builds the track from the attributes as given and inserts it under its label. */
  function LegacyCreateTrack(c: Client, trackName: string, attrs: TrackAttrs): (r: Result<Client, Halt>)
    requires WellFormed(c)
    ensures r.Success? <==> attrs.kind.Some?
    ensures r.Failure? ==> r.error == KeyErrorOn("type")
    ensures r.Success? ==>
      && WellFormed(r.value)
      && r.value.name == c.name && r.value.toggleRecord == c.toggleRecord
      && r.value.tracks.Keys == c.tracks.Keys + {trackName}
      && (trackName in c.tracks ==> r.value.order == c.order)
      && (trackName !in c.tracks ==> r.value.order == c.order + [trackName])
      && r.value.tracks[trackName] == NewTrack(trackName, attrs).value
      && (forall l :: l in c.tracks && l != trackName ==> r.value.tracks[l] == c.tracks[l])
  {
    match NewTrack(trackName, attrs)
    case Failure(h) => Failure(h)
    case Success(t) =>
      var order := if trackName in c.tracks then c.order else c.order + [trackName];
      assert Distinct(order) by {
        if trackName !in c.tracks {
          assert trackName !in c.order;
        }
      }
      Success(c.(order := order, tracks := c.tracks[trackName := t]))
  }

  /** Both client versions create the same track: the newer one's stamp is never read. */
  lemma CreateTrackAgrees(c: Client, trackName: string, attrs: TrackAttrs)
    requires WellFormed(c)
    ensures LegacyCreateTrack(c, trackName, attrs) == CreateTrack(c, trackName, attrs)
  {
    StampIsInvisible(trackName, attrs, c.toggleRecord);
  }

  /** How one event ends in the older worker. */
  datatype LegacyOutcome =
    | Done(applied: Applied)
    | Missing(error: Error)
    | Crashed(applied: Applied, halt: Halt)

  /**
   * One event. Resolution and the toggle branch behave as in the newer
   * client. For a `None` track list the "tracks" are the dictionary's keys, so
   * the first pass calls `trigger` on a string; for a listed scene event the
   * first pass runs and the second pass then calls `trigger` on a label
   * string. Either raises an AttributeError that stops the worker, unless the
   * client has no tracks.
   */
  function LegacyApplyEvent(c: Client, e: Event, port: seq<Message>): (r: LegacyOutcome)
    requires WellFormed(c)
    ensures r.Missing? <==> e.tracklist.Some? && exists l :: l in e.tracklist.value && l !in c.tracks
    ensures r.Missing? ==>
      && r.error.NoSuchTrack? && r.error.client == c.name
      && FirstUnknown(e.tracklist.value, c.tracks, r.error.trackLabel)
    ensures r.Crashed? <==> !r.Missing? && (e.tracklist.None? || e.desired.Some?) && c.tracks != map[]
    ensures r.Crashed? && e.tracklist.None? ==> r.applied == Applied(c, port)
    ensures r.Crashed? ==> r.applied.client.tracks.Keys == c.tracks.Keys
    ensures r.Crashed? && e.tracklist.Some? ==>
      forall l :: l in e.tracklist.value ==> r.applied.client.tracks[l].playing == e.desired.value
  {
    match Resolve(c, e.tracklist)
    case Failure(err) => Missing(err)
    case Success(resolved) =>
      var crash := AttributeErrorOn("'str' object has no attribute 'trigger'");
      if e.tracklist.None? then
        if c.tracks == map[] then Done(Applied(c, port)) else Crashed(Applied(c, port), crash)
      else if e.desired.None? then
        Done(TriggerEach(c, resolved, None, port))
      else
        var first := TriggerEach(c, resolved, e.desired, port);
        TriggerEachPlaying(c, resolved, e.desired, port);
        if c.tracks == map[] then Done(first) else Crashed(first, crash)
  }

  /** On toggle events the two client versions agree, error for error. */
  lemma LegacyTogglesAgree(c: Client, e: Event, port: seq<Message>)
    requires WellFormed(c)
    requires e.tracklist.Some? && e.desired.None?
    ensures LegacyApplyEvent(c, e, port) ==
      match ApplyEvent(c, e, port)
      case Success(a) => Done(a)
      case Failure(err) => Missing(err)
  {
  }

  /**
   * One command: `create_track` and `list_tracks` only. Listing serialises each
   * track through a method that reads an attribute tracks do not have, so it
   * stops the worker unless the client has no tracks.
   */
  function LegacyExecute(w: Worker, cmd: ClientCommand): (r: Worker)
    requires WellFormed(w.client)
    ensures WellFormed(r.client)
    ensures r.commands == w.commands && r.events == w.events && r.port == w.port && r.log == w.log
    ensures !cmd.CreateTrackCmd? && !cmd.ListTracksCmd? ==> r == w
    ensures cmd.ListTracksCmd? && w.client.tracks == map[] ==> r == w.(replies := w.replies + [EmptyTrackListing])
    ensures cmd.ListTracksCmd? && w.client.tracks != map[] ==> r == w.(halted := Some(AttributeErrorOn("self.number")))
    ensures cmd.CreateTrackCmd? ==>
      match LegacyCreateTrack(w.client, cmd.trackName, cmd.attrs)
      case Success(c) => r == w.(client := c)
      case Failure(h) => r == w.(halted := Some(h))
  {
    match cmd
    case CreateTrackCmd(trackName, attrs) =>
      (match LegacyCreateTrack(w.client, trackName, attrs)
       case Success(c) => w.(client := c)
       case Failure(h) => w.(halted := Some(h)))
    case ListTracksCmd =>
      if w.client.tracks == map[] then w.(replies := w.replies + [EmptyTrackListing])
      else w.(halted := Some(AttributeErrorOn("self.number")))
    case _ => w
  }

  /**
   * Whether a command stops the older worker when its client has the track
   * labels `keys`: a track without a type, or a listing of a client that has
   * tracks.
   */
  predicate LegacyStops(cmd: ClientCommand, keys: set<string>)
  {
    (cmd.CreateTrackCmd? && cmd.attrs.kind.None?) || (cmd.ListTracksCmd? && keys != {})
  }

  /** The fault a stopping command raises in the older worker. */
  function LegacyFault(cmd: ClientCommand): Halt
  {
    if cmd.ListTracksCmd? then AttributeErrorOn("self.number") else KeyErrorOn("type")
  }

  /** How many of the commands are listings. */
  function Listings(cmds: seq<ClientCommand>): nat
  {
    if cmds == [] then 0 else (if cmds[0].ListTracksCmd? then 1 else 0) + Listings(cmds[1..])
  }

  /** One command on a running older worker: it stops the worker with its fault, or adds its track or empty listing. */
  lemma LegacyExecuteEffect(w: Worker, cmd: ClientCommand)
    requires WellFormed(w.client) && w.halted.None?
    ensures var r := LegacyExecute(w, cmd);
            && (r.halted.None? <==> !LegacyStops(cmd, w.client.tracks.Keys))
            && (r.halted.Some? ==> r.halted == Some(LegacyFault(cmd)))
            && (r.halted.None? ==>
                 && r.client.tracks.Keys == w.client.tracks.Keys + (if cmd.CreateTrackCmd? then {cmd.trackName} else {})
                 && r.replies == w.replies + (if cmd.ListTracksCmd? then [EmptyTrackListing] else []))
  {
    if cmd.ListTracksCmd? && w.client.tracks.Keys != {} {
      assert w.client.tracks != map[];
    } else if cmd.ListTracksCmd? {
      assert w.client.tracks == map[];
    }
  }

  /** `process_commands` of the older worker. */
  function LegacyDrainCommands(w: Worker): (r: Worker)
    requires WellFormed(w.client)
    ensures WellFormed(r.client)
    ensures r.events == w.events && r.port == w.port && r.log == w.log
    ensures r.halted.None? ==> r.commands == []
    ensures w.halted.Some? ==> r == w
    decreases |w.commands|
  {
    if w.halted.Some? || w.commands == [] then w
    else LegacyDrainCommands(LegacyExecute(w.(commands := w.commands[1..]), w.commands[0]))
  }

  /** The track labels before command `i + 1`, seen from the worker after the first command. */
  lemma CreatedShift(keys: set<string>, keys1: set<string>, cmds: seq<ClientCommand>)
    requires cmds != [] && keys1 == keys + Created([cmds[0]])
    ensures forall i :: 0 <= i < |cmds| - 1 ==>
              keys1 + Created(cmds[1..][..i]) == keys + Created(cmds[..i + 1])
  {
    forall i | 0 <= i < |cmds| - 1
      ensures keys1 + Created(cmds[1..][..i]) == keys + Created(cmds[..i + 1])
    {
      assert cmds[..i + 1][1..] == cmds[1..][..i];
    }
  }

  /**
   * When draining the commands of a running older worker stops it: exactly
   * when some command meets a stopping condition given the tracks created
   * before it.
   */
  lemma {:induction false} LegacyDrainCommandsStops(w: Worker)
    requires WellFormed(w.client) && w.halted.None?
    ensures var r := LegacyDrainCommands(w);
            r.halted.None? <==>
              forall i :: 0 <= i < |w.commands| ==>
                !LegacyStops(w.commands[i], w.client.tracks.Keys + Created(w.commands[..i]))
    decreases |w.commands|
  {
    var r := LegacyDrainCommands(w);
    var keys := w.client.tracks.Keys;
    if w.commands != [] {
      var cmd := w.commands[0];
      var w1 := LegacyExecute(w.(commands := w.commands[1..]), cmd);
      LegacyExecuteEffect(w.(commands := w.commands[1..]), cmd);
      assert r == LegacyDrainCommands(w1);
      assert w.commands[..0] == [];
      if w1.halted.None? {
        LegacyDrainCommandsStops(w1);
        CreatedShift(keys, w1.client.tracks.Keys, w.commands);
        if r.halted.Some? {
          var i :| 0 <= i < |w1.commands| && LegacyStops(w1.commands[i], w1.client.tracks.Keys + Created(w1.commands[..i]));
          assert w.commands[i + 1] == w1.commands[i];
        } else {
          forall i | 0 <= i < |w.commands|
            ensures !LegacyStops(w.commands[i], keys + Created(w.commands[..i]))
          {
            if i > 0 { assert w.commands[i] == w1.commands[i - 1]; }
          }
        }
      }
    }
  }

  /**
   * How draining the commands of a running older worker stops it: at a
   * command meeting a stopping condition given the tracks created before it,
   * which raises its fault, with the commands behind it still queued. (By
   * `LegacyDrainCommandsStops`, no earlier command meets one.)
   */
  lemma {:induction false} LegacyDrainCommandsFault(w: Worker)
    requires WellFormed(w.client) && w.halted.None?
    ensures var r := LegacyDrainCommands(w);
            r.halted.Some? ==>
              exists i :: && 0 <= i < |w.commands|
                          && LegacyStops(w.commands[i], w.client.tracks.Keys + Created(w.commands[..i]))
                          && r.halted == Some(LegacyFault(w.commands[i]))
                          && r.commands == w.commands[i + 1..]
    decreases |w.commands|
  {
    var r := LegacyDrainCommands(w);
    var keys := w.client.tracks.Keys;
    if w.commands != [] {
      var cmd := w.commands[0];
      var w1 := LegacyExecute(w.(commands := w.commands[1..]), cmd);
      LegacyExecuteEffect(w.(commands := w.commands[1..]), cmd);
      assert r == LegacyDrainCommands(w1);
      assert w.commands[..0] == [];
      if w1.halted.Some? {
        assert r.commands == w.commands[0 + 1..];
      } else if r.halted.Some? {
        LegacyDrainCommandsFault(w1);
        CreatedShift(keys, w1.client.tracks.Keys, w.commands);
        var i :| && 0 <= i < |w1.commands|
                 && LegacyStops(w1.commands[i], w1.client.tracks.Keys + Created(w1.commands[..i]))
                 && r.halted == Some(LegacyFault(w1.commands[i]))
                 && r.commands == w1.commands[i + 1..];
        assert w1.commands[i + 1..] == w.commands[i + 1 + 1..];
        assert w.commands[i + 1] == w1.commands[i];
      }
    }
  }

  /**
   * What draining the commands of an older worker that does not stop leaves:
   * every queued track created and every listing published as an empty one.
   */
  lemma {:induction false} LegacyDrainCommandsRuns(w: Worker)
    requires WellFormed(w.client) && w.halted.None?
    ensures var r := LegacyDrainCommands(w);
            r.halted.None? ==>
              && r.client.tracks.Keys == w.client.tracks.Keys + Created(w.commands)
              && r.replies == w.replies + seq(Listings(w.commands), _ => EmptyTrackListing)
    decreases |w.commands|
  {
    var r := LegacyDrainCommands(w);
    if w.commands != [] && r.halted.None? {
      var cmd := w.commands[0];
      var w1 := LegacyExecute(w.(commands := w.commands[1..]), cmd);
      LegacyExecuteEffect(w.(commands := w.commands[1..]), cmd);
      assert r == LegacyDrainCommands(w1);
      LegacyDrainCommandsRuns(w1);
      assert w1.commands == w.commands[1..];
      assert (if cmd.ListTracksCmd? then [EmptyTrackListing] else []) + seq(Listings(w1.commands), _ => EmptyTrackListing)
          == seq(Listings(w.commands), _ => EmptyTrackListing);
    }
  }

  /**
   * `process_events` of the older worker: as the newer one on toggle events
   * and unknown labels; a crash stops the worker with the first pass applied.
   */
  function LegacyDrainEvents(w: Worker): (r: Worker)
    requires WellFormed(w.client)
    ensures WellFormed(r.client)
    ensures r.commands == w.commands && r.replies == w.replies
    ensures w.halted.Some? ==> r == w
    ensures |r.events| <= |w.events|
    ensures w.halted.None? && w.events != [] && LegacyApplyEvent(w.client, w.events[0], w.port).Crashed? ==>
      && r.halted == Some(LegacyApplyEvent(w.client, w.events[0], w.port).halt)
      && r.events == w.events[1..]
    ensures w.halted.None? && r.halted.Some? ==> r.halted.value.AttributeErrorOn?
    ensures (forall e :: e in w.events ==> e.tracklist.Some? && e.desired.None?) ==> r == DrainEvents(w)
    decreases |w.events|
  {
    if w.halted.Some? || w.events == [] then w
    else
      match LegacyApplyEvent(w.client, w.events[0], w.port)
      case Missing(err) => w.(events := w.events[1..], log := w.log + [err])
      case Crashed(a, h) => w.(client := a.client, port := a.port, events := w.events[1..], halted := Some(h))
      case Done(a) =>
        var rest := w.events[1..];
        assert forall e :: e in rest ==> e in w.events;
        LegacyDrainEvents(w.(client := a.client, port := a.port, events := rest))
  }

  /** One pass of the older worker's loop: commands, then events. */
  function LegacyIteration(w: Worker): (r: Worker)
    requires WellFormed(w.client)
    ensures WellFormed(r.client)
    ensures w.halted.Some? ==> r == w
    ensures r.halted.None? ==> r.commands == []
    ensures LegacyDrainCommands(w).halted.Some? ==> r.events == w.events && r.port == w.port
    ensures r.port != w.port ==> r.commands == []
  {
    if w.halted.Some? then w else LegacyDrainEvents(LegacyDrainCommands(w))
  }

  /** A scene event on a client with tracks stops the older worker; the newer one applies it. */
  lemma SceneEventCrashesLegacy(attrs: TrackAttrs)
    requires attrs.kind.Some?
    ensures var c := CreateTrack(NewClient("A", false), "t0", attrs).value;
            var e := Event(Some(["t0"]), Some(true));
            && LegacyApplyEvent(c, e, []).Crashed?
            && ApplyEvent(c, e, []).Success?
  {
    var c := CreateTrack(NewClient("A", false), "t0", attrs).value;
    assert c.order == ["t0"];
  }
}

=== FILE: luppp.dfy ===
/**
 * The Luppp configuration generator (py_midiplexer/includes/luppputils.py):
 * one grid binding per track 1..9 and per status of the status table. The
 * author, read from the environment in the source, is a parameter, and the
 * configuration is returned as a record rather than as JSON text.
 */
module Luppp {

  /** One entry of `inputBindings`. */
  datatype InputBinding = InputBinding(action: string, status: nat, track: nat, data: nat, scene: nat, active: nat)

  /** The generated configuration. */
  datatype LupppConfig = LupppConfig(name: string, author: string, inputBindings: seq<InputBinding>)

  /** The status table `{176: 1, 0: 0}` in its iteration order: status and active state. */
  const StatusStates: seq<(nat, nat)> := [(176, 1), (0, 0)]

  /** The binding for one track and one status-table entry. */
  function GridBinding(track: nat, entry: (nat, nat)): InputBinding
  {
    InputBinding("grid:event", entry.0, track, track, 0, entry.1)
  }

  /**
   * `genconfig`: for each track 1..9, one binding per status in table order.
   * The result has 18 bindings; binding `i` is for track `i / 2 + 1`, with
   * status 176 and active 1 when `i` is even and status 0 and active 0 when
   * it is odd, and every binding is a grid event on scene 0 whose data is
   * its track.
   */
  method GenConfig(author: string) returns (cfg: LupppConfig)
    ensures cfg.name == "py-midiplexer" && cfg.author == author
    ensures |cfg.inputBindings| == 18
    ensures forall i :: 0 <= i < 18 ==>
      var b := cfg.inputBindings[i];
      && b.action == "grid:event" && b.scene == 0
      && b.track == i / 2 + 1 && b.data == b.track
      && b.status == (if i % 2 == 0 then 176 else 0)
      && b.active == (if i % 2 == 0 then 1 else 0)
  {
    var bindings: seq<InputBinding> := [];
    var track := 1;
    while track < 10
      invariant 1 <= track <= 10
      invariant |bindings| == 2 * (track - 1)
      invariant forall i :: 0 <= i < |bindings| ==> bindings[i] == GridBinding(i / 2 + 1, StatusStates[i % 2])
    {
      var k := 0;
      while k < |StatusStates|
        invariant 0 <= k <= |StatusStates|
        invariant |bindings| == 2 * (track - 1) + k
        invariant forall i :: 0 <= i < |bindings| ==> bindings[i] == GridBinding(i / 2 + 1, StatusStates[i % 2])
      {
        bindings := bindings + [GridBinding(track, StatusStates[k])];
        k := k + 1;
      }
      track := track + 1;
    }
    cfg := LupppConfig("py-midiplexer", author, bindings);
  }
}

=== FILE: plexer.dfy ===
/**
 * The orchestrator's mode machine and signal dispatch
 * (src/py_midiplexer/py_midiplexer.py). Each client is seen through the event
 * queue the orchestrator writes to; the signal queue is a sequence consumed
 * from the front.
 */
module Plexer {
  import opened Common
  import opened Errors
  import opened Clients
  import opened Controllers
  import opened Routing

  /** `Mode`: a trigger press fires tracks, a scene press selects a scene. */
  datatype Mode = TriggerMode | SceneMode

  /** `change_mode`: the other mode. */
  function ChangeMode(m: Mode): (r: Mode)
    ensures r != m
    ensures r == TriggerMode <==> m == SceneMode
  {
    match m
    case TriggerMode => SceneMode
    case SceneMode => TriggerMode
  }

  /** Switching mode twice restores the mode. */
  lemma ChangeModeTwiceRestores(m: Mode)
    ensures ChangeMode(ChangeMode(m)) == m
  {
  }

  /** A client as the orchestrator sees it: its name and its event queue. */
  datatype Slot = Slot(name: string, events: seq<Event>)

  /**
   * The orchestrator's state. `clients` is in `add_client` order and may hold
   * two clients of the same name; `signals` is the pending signal queue.
   */
  datatype Plexer = Plexer(mode: Mode, tables: Tables, clients: seq<Slot>, signals: seq<Signal>)

  /** The two slot lists hold the same clients, in the same order. */
  predicate SameClients(a: seq<Slot>, b: seq<Slot>)
  {
    |a| == |b| && forall j :: 0 <= j < |a| ==> a[j].name == b[j].name
  }

  /**
   * `trigger_event`: enqueues one event on the client. The track list is
   * passed on as given; in trigger mode the desired state is replaced by
   * `None` whatever was asked.
   */
  function TriggerEvent(s: Slot, mode: Mode, tracklist: Option<seq<string>>, desired: Option<bool>): (r: Slot)
    ensures r.name == s.name
    ensures |r.events| == |s.events| + 1 && s.events <= r.events
    ensures r.events[|s.events|].tracklist == tracklist
    ensures mode == TriggerMode ==> r.events[|s.events|].desired.None?
    ensures mode == SceneMode ==> r.events[|s.events|].desired == desired
  {
    var d := if mode == TriggerMode then None else desired;
    s.(events := s.events + [Event(tracklist, d)])
  }

  /** The event `trigger_track` sends for one track. */
  function TrackEvent(track: string): Event
  {
    Event(Some([track]), None)
  }

  /** `TrackEvent` of each track, in order. */
  function TrackEvents(ts: seq<string>): (r: seq<Event>)
    ensures |r| == |ts|
    ensures forall i :: 0 <= i < |ts| ==> r[i] == TrackEvent(ts[i])
  {
    seq(|ts|, i requires 0 <= i < |ts| => TrackEvent(ts[i]))
  }

  /** The events of a concatenation are the concatenated events. */
  lemma TrackEventsAppend(a: seq<string>, b: seq<string>)
    ensures TrackEvents(a + b) == TrackEvents(a) + TrackEvents(b)
  {
  }

  /** `trigger_event(c, [track], None)` for every client `c`, in order. */
  function TrackToAll(slots: seq<Slot>, mode: Mode, track: string): (r: seq<Slot>)
    ensures SameClients(slots, r)
    ensures forall j :: 0 <= j < |slots| ==> r[j].events == slots[j].events + [TrackEvent(track)]
    decreases |slots|
  {
    if slots == [] then []
    else [TriggerEvent(slots[0], mode, Some([track]), None)] + TrackToAll(slots[1..], mode, track)
  }

  /**
   * `trigger_track`: the track's event goes on EVERY client's queue; the
   * client name is only compared for a debugging print and does not select.
   */
  function TriggerTrack(p: Plexer, client: string, track: string): (r: Plexer)
    ensures r.mode == p.mode && r.tables == p.tables && r.signals == p.signals
    ensures SameClients(p.clients, r.clients)
    ensures forall j :: 0 <= j < |p.clients| ==> r.clients[j].events == p.clients[j].events + [TrackEvent(track)]
  {
    p.(clients := TrackToAll(p.clients, p.mode, track))
  }

  /** The events of several `trigger_track` calls, one per track, on every client. */
  function TriggerTracks(p: Plexer, client: string, ts: seq<string>): (r: Plexer)
    ensures r.mode == p.mode && r.tables == p.tables && r.signals == p.signals
    ensures SameClients(p.clients, r.clients)
    ensures forall j :: 0 <= j < |p.clients| ==> r.clients[j].events == p.clients[j].events + TrackEvents(ts)
    decreases |ts|
  {
    if ts == [] then p
    else
      assert ts == [ts[0]] + ts[1..];
      TrackEventsAppend([ts[0]], ts[1..]);
      TriggerTracks(TriggerTrack(p, client, ts[0]), client, ts[1..])
  }

  /**
   * The trigger-mode branch of `handle_signals` for one trigger-map entry:
   * every track of every bound client, client by client, is broadcast.
   */
  function TriggerBindings(p: Plexer, bs: seq<Binding>): (r: Plexer)
    ensures r.mode == p.mode && r.tables == p.tables && r.signals == p.signals
    ensures SameClients(p.clients, r.clients)
    ensures forall j :: 0 <= j < |p.clients| ==> r.clients[j].events == p.clients[j].events + TrackEvents(Flatten(bs))
    decreases |bs|
  {
    if bs == [] then p
    else
      TrackEventsAppend(bs[0].tracks, Flatten(bs[1..]));
      TriggerBindings(TriggerTracks(p, bs[0].client, bs[0].tracks), bs[1..])
  }

  /** The event `trigger_scene` hands to `trigger_event` for a client of this name. */
  function SceneEvent(members: Members, name: string, mode: Mode): (r: Event)
    ensures name in members ==> r.tracklist == Some(members[name])
    ensures name !in members ==> r.tracklist.None?
    ensures mode == SceneMode ==> r.desired == Some(name in members)
    ensures mode == TriggerMode ==> r.desired.None?
  {
    var s := TriggerEvent(Slot(name, []), mode,
                          if name in members then Some(members[name]) else None, Some(name in members));
    s.events[0]
  }

  /** `trigger_scene` over the clients: one event each, in order. */
  function SceneToAll(slots: seq<Slot>, mode: Mode, members: Members): (r: seq<Slot>)
    ensures SameClients(slots, r)
    ensures forall j :: 0 <= j < |slots| ==>
      r[j].events == slots[j].events + [SceneEvent(members, slots[j].name, mode)]
    decreases |slots|
  {
    if slots == [] then []
    else
      var s := slots[0];
      var e := if s.name in members then TriggerEvent(s, mode, Some(members[s.name]), Some(true))
               else TriggerEvent(s, mode, None, Some(false));
      assert e.events == s.events + [SceneEvent(members, s.name, mode)];
      [e] + SceneToAll(slots[1..], mode, members)
  }

  /**
   * `trigger_scene`: each client named in the scene gets its member list with
   * "on", every other client gets "all off". An unknown scene raises a
   * KeyError that the dispatcher swallows before any event is sent, so
   * nothing changes.
   */
  function TriggerScene(p: Plexer, scene: string): (r: Plexer)
    ensures r.mode == p.mode && r.tables == p.tables && r.signals == p.signals
    ensures SameClients(p.clients, r.clients)
    ensures scene !in p.tables.scenes ==> r == p
    ensures scene in p.tables.scenes ==>
      forall j :: 0 <= j < |p.clients| ==>
        r.clients[j].events == p.clients[j].events + [SceneEvent(p.tables.scenes[scene], p.clients[j].name, p.mode)]
  {
    if scene !in p.tables.scenes then p
    else p.(clients := SceneToAll(p.clients, p.mode, p.tables.scenes[scene]))
  }

  /** An empty scene turns every track of every client off. */
  lemma EmptySceneAllOff(p: Plexer, scene: string)
    requires p.mode == SceneMode
    requires scene in p.tables.scenes && p.tables.scenes[scene] == map[]
    ensures forall j :: 0 <= j < |p.clients| ==>
      TriggerScene(p, scene).clients[j].events == p.clients[j].events + [Event(None, Some(false))]
  {
    forall j | 0 <= j < |p.clients|
      ensures TriggerScene(p, scene).clients[j].events == p.clients[j].events + [Event(None, Some(false))]
    {
      var e := SceneEvent(map[], p.clients[j].name, SceneMode);
      assert e == Event(None, Some(false));
    }
  }

  /**
   * The lookup step of `handle_signals` for a signal that is not a mode
   * switch: in trigger mode the trigger map's bindings are broadcast, in
   * scene mode the mapped scene is triggered. A missing key raises a
   * KeyError that is logged and swallowed: nothing changes.
   */
  function Route(p: Plexer, s: Signal): (r: Plexer)
    ensures r.mode == p.mode && r.tables == p.tables && r.signals == p.signals
    ensures SameClients(p.clients, r.clients)
    ensures p.mode == TriggerMode && TriggerEntry(p.tables, s.controller, s.signal).None? ==> r == p
    ensures p.mode == SceneMode && SceneEntry(p.tables, s.controller, s.signal).None? ==> r == p
    ensures p.mode == TriggerMode && TriggerEntry(p.tables, s.controller, s.signal).Some? ==>
      var bs := TriggerEntry(p.tables, s.controller, s.signal).value;
      forall j :: 0 <= j < |p.clients| ==> r.clients[j].events == p.clients[j].events + TrackEvents(Flatten(bs))
    ensures p.mode == SceneMode && SceneEntry(p.tables, s.controller, s.signal).Some? ==>
      r == TriggerScene(p, SceneEntry(p.tables, s.controller, s.signal).value)
  {
    match p.mode
    case TriggerMode =>
      (match TriggerEntry(p.tables, s.controller, s.signal)
       case None => p
       case Some(bs) => TriggerBindings(p, bs))
    case SceneMode =>
      (match SceneEntry(p.tables, s.controller, s.signal)
       case None => p
       case Some(scene) => TriggerScene(p, scene))
  }

  /** Whether the signal is a mode switch of its controller. */
  predicate Switches(p: Plexer, s: Signal)
  {
    IsModeSwitch(p.tables, s.controller, s.signal)
  }

  /**
   * The `while` loop of `handle_signals`: signals are taken from the front;
   * a mode switch flips the mode and ends the call, leaving the rest of the
   * queue for the next call; any other signal is routed.
   */
  function DrainSignals(p: Plexer): (r: Plexer)
    ensures r.tables == p.tables
    ensures SameClients(p.clients, r.clients)
    ensures SuffixOf(r.signals, p.signals)
    ensures (forall i :: 0 <= i < |p.signals| ==> !Switches(p, p.signals[i])) ==>
      r.signals == [] && r.mode == p.mode
    ensures r.signals != [] ==> r.mode != p.mode
    decreases |p.signals|
  {
    if p.signals == [] then p
    else
      var s := p.signals[0];
      var q := p.(signals := p.signals[1..]);
      if Switches(p, s) then
        SuffixOfTail(q.signals, p.signals);
        q.(mode := ChangeMode(p.mode))
      else
        var r := DrainSignals(Route(q, s));
        assert forall i :: 0 <= i < |q.signals| ==> q.signals[i] == p.signals[i + 1];
        SuffixOfTail(r.signals, p.signals);
        r
  }

  /** The position of the first mode switch among the signals, or their count when there is none. */
  function FirstSwitch(t: Tables, ss: seq<Signal>): (k: nat)
    ensures k <= |ss|
    ensures forall i :: 0 <= i < k ==> !IsModeSwitch(t, ss[i].controller, ss[i].signal)
    ensures k < |ss| ==> IsModeSwitch(t, ss[k].controller, ss[k].signal)
    decreases |ss|
  {
    if ss == [] || IsModeSwitch(t, ss[0].controller, ss[0].signal) then 0
    else 1 + FirstSwitch(t, ss[1..])
  }

  /** Routes each of the signals in turn. */
  function RouteAll(p: Plexer, ss: seq<Signal>): (r: Plexer)
    ensures r.mode == p.mode && r.tables == p.tables && r.signals == p.signals
    decreases |ss|
  {
    if ss == [] then p else RouteAll(Route(p, ss[0]), ss[1..])
  }

  /** Routing a signal does not read the pending signal queue. */
  lemma RouteIgnoresQueue(p: Plexer, s: Signal, ss: seq<Signal>)
    ensures Route(p.(signals := ss), s) == Route(p, s).(signals := ss)
  {
    var a := Route(p.(signals := ss), s);
    var b := Route(p, s);
    forall j | 0 <= j < |a.clients|
      ensures a.clients[j] == b.clients[j]
    {
    }
  }

  /**
   * The whole of `handle_signals`' loop: the signals in front of the first
   * mode switch are routed one after the other, in queue order; the switch
   * then flips the mode and exactly the signals behind it stay queued. With
   * no switch in the queue every signal is routed and the queue ends empty.
   */
  lemma {:induction false} DrainSignalsExact(p: Plexer)
    ensures var k := FirstSwitch(p.tables, p.signals);
            var routed := RouteAll(p.(signals := []), p.signals[..k]);
            DrainSignals(p) ==
              if k < |p.signals| then routed.(mode := ChangeMode(p.mode), signals := p.signals[k + 1..])
              else routed
    decreases |p.signals|
  {
    var ss := p.signals;
    if ss == [] {
      assert p.(signals := []) == p;
    } else if !Switches(p, ss[0]) {
      var q := p.(signals := ss[1..]);
      var p1 := Route(q, ss[0]);
      assert DrainSignals(p) == DrainSignals(p1);
      DrainSignalsExact(p1);
      RouteIgnoresQueue(q, ss[0], []);
      var k := FirstSwitch(p.tables, ss);
      assert FirstSwitch(p1.tables, p1.signals) == k - 1;
      assert ss[..k][0] == ss[0] && ss[..k][1..] == ss[1..][..k - 1];
      assert q.(signals := []) == p.(signals := []);
      assert RouteAll(p.(signals := []), ss[..k]) == RouteAll(p1.(signals := []), p1.signals[..k - 1]);
      if k < |ss| {
        assert p1.signals[k - 1 + 1..] == ss[k + 1..];
      }
    }
  }

  /**
   * `handle_signals`: an empty queue raises NothingToDo and changes nothing;
   * otherwise the queue is drained as above. A mode switch at the head only
   * changes the mode: no client receives an event and the later signals wait.
   */
  function HandleSignals(p: Plexer): (r: Result<Plexer, Error>)
    ensures r.Failure? <==> p.signals == []
    ensures r.Failure? ==> r.error == NothingToDo
    ensures r.Success? ==> r.value.tables == p.tables && SameClients(p.clients, r.value.clients)
    ensures p.signals != [] && Switches(p, p.signals[0]) ==>
      r == Success(p.(mode := ChangeMode(p.mode), signals := p.signals[1..]))
  {
    if p.signals == [] then Failure(NothingToDo) else Success(DrainSignals(p))
  }

  /** A lone signal that is not a mode switch is routed, and that is all `handle_signals` does. */
  lemma HandleLoneSignal(p: Plexer, s: Signal)
    requires p.signals == [s] && !Switches(p, s)
    ensures HandleSignals(p) == Success(Route(p.(signals := []), s))
  {
    var q := p.(signals := []);
    assert DrainSignals(p) == DrainSignals(Route(q, s));
  }

  /**
   * A lone signal that is neither a mode switch nor mapped in the current
   * mode's table is consumed and has no other effect: the KeyError is
   * swallowed, no client receives an event, and the tables stay as they were.
   */
  lemma UnmappedSignalIsDropped(p: Plexer, s: Signal)
    requires p.signals == [s] && !Switches(p, s)
    requires p.mode == TriggerMode ==> TriggerEntry(p.tables, s.controller, s.signal).None?
    requires p.mode == SceneMode ==> SceneEntry(p.tables, s.controller, s.signal).None?
    ensures HandleSignals(p) == Success(p.(signals := []))
  {
    HandleLoneSignal(p, s);
  }

  /**
   * Routing a signal never touches the tables, so a scene press is
   * idempotent at the orchestrator too: pressing it twice enqueues the same
   * scene event twice on each client.
   */
  lemma ScenePressTwice(p: Plexer, s: Signal)
    requires p.mode == SceneMode && !Switches(p, s)
    requires SceneEntry(p.tables, s.controller, s.signal).Some?
    requires SceneEntry(p.tables, s.controller, s.signal).value in p.tables.scenes
    ensures var members := p.tables.scenes[SceneEntry(p.tables, s.controller, s.signal).value];
            forall j :: 0 <= j < |p.clients| ==>
              var e := SceneEvent(members, p.clients[j].name, SceneMode);
              Route(Route(p, s), s).clients[j].events == p.clients[j].events + [e, e]
  {
    var p1 := Route(p, s);
    var scene := SceneEntry(p.tables, s.controller, s.signal).value;
    var members := p.tables.scenes[scene];
    assert p1 == TriggerScene(p, scene);
    assert Route(p1, s) == TriggerScene(p1, scene);
    forall j | 0 <= j < |p.clients|
      ensures Route(p1, s).clients[j].events ==
              p.clients[j].events + [SceneEvent(members, p.clients[j].name, SceneMode), SceneEvent(members, p.clients[j].name, SceneMode)]
    {
      var e := SceneEvent(members, p.clients[j].name, SceneMode);
      assert p1.clients[j].events == p.clients[j].events + [e];
      assert p1.clients[j].name == p.clients[j].name;
      assert Route(p1, s).clients[j].events == p1.clients[j].events + [e];
      assert p.clients[j].events + [e] + [e] == p.clients[j].events + [e, e];
    }
  }

  /** A trigger press twice in trigger mode enqueues the bound tracks' toggle events twice on each client. */
  lemma TriggerPressTwice(p: Plexer, s: Signal)
    requires p.mode == TriggerMode && !Switches(p, s)
    requires TriggerEntry(p.tables, s.controller, s.signal).Some?
    ensures var ts := Flatten(TriggerEntry(p.tables, s.controller, s.signal).value);
            forall j :: 0 <= j < |p.clients| ==>
              Route(Route(p, s), s).clients[j].events == p.clients[j].events + TrackEvents(ts) + TrackEvents(ts)
  {
    var p1 := Route(p, s);
    assert p1.mode == p.mode && p1.tables == p.tables && |p1.clients| == |p.clients|;
  }
}

=== FILE: routing.dfy ===
/**
 * The orchestrator's routing tables (src/py_midiplexer/py_midiplexer.py) and
 * the command-plane operations that edit them. Every edit appends or creates;
 * nothing is ever removed.
 */
module Routing {
  import opened Common
  import opened Controllers

  /** The tracks of some clients, by client name: a scene's members. */
  type Members = map<string, seq<string>>

  /** One `client -> [track]` entry of the trigger map, kept in insertion order. */
  datatype Binding = Binding(client: string, tracks: seq<string>)

  /**
   * `scenes`: scene -> client -> [track]; `sceneMap`: controller -> signal -> scene;
   * `triggerMap`: controller -> signal -> client -> [track];
   * `modeSwitch`: controller -> [signal].
   */
  datatype Tables = Tables(
    scenes: map<string, Members>,
    sceneMap: map<string, map<SignalLabel, string>>,
    triggerMap: map<string, map<SignalLabel, seq<Binding>>>,
    modeSwitch: map<string, seq<SignalLabel>>)

  function EmptyTables(): Tables
  {
    Tables(map[], map[], map[], map[])
  }

  /** The clients of a binding list, in order. */
  function ClientsOf(bs: seq<Binding>): (r: seq<string>)
    ensures |r| == |bs|
    ensures forall i :: 0 <= i < |bs| ==> r[i] == bs[i].client
    decreases |bs|
  {
    if bs == [] then [] else [bs[0].client] + ClientsOf(bs[1..])
  }

  /** The tracks bound to `client`, if it has an entry. */
  function Lookup(bs: seq<Binding>, client: string): (r: Option<seq<string>>)
    ensures r.None? <==> client !in ClientsOf(bs)
    decreases |bs|
  {
    if bs == [] then None
    else if bs[0].client == client then Some(bs[0].tracks)
    else Lookup(bs[1..], client)
  }

  /** Lookup and the client list of a binding list with one more entry in front. */
  lemma ConsBinding(b: Binding, rest: seq<Binding>)
    ensures ClientsOf([b] + rest) == [b.client] + ClientsOf(rest)
    ensures forall client :: Lookup([b] + rest, client) == if b.client == client then Some(b.tracks) else Lookup(rest, client)
  {
    assert ([b] + rest)[1..] == rest;
    assert ClientsOf([b] + rest) == [b.client] + ClientsOf(rest);
  }

  /** Appends `track` to the entry of `client`, creating the entry at the end if absent. */
  function Append(bs: seq<Binding>, client: string, track: string): (r: seq<Binding>)
    ensures Lookup(r, client) == Some(Lookup(bs, client).GetOr([]) + [track])
    ensures forall other :: other != client ==> Lookup(r, other) == Lookup(bs, other)
    decreases |bs|
  {
    if bs == [] then
      var r := [Binding(client, [track])];
      assert Lookup(r, client) == Some([track]);
      assert Lookup(bs, client).GetOr([]) + [track] == [track];
      r
    else
      assert bs == [bs[0]] + bs[1..];
      ConsBinding(bs[0], bs[1..]);
      if bs[0].client == client then
        var r := [Binding(client, bs[0].tracks + [track])] + bs[1..];
        ConsBinding(r[0], bs[1..]);
        r
      else
        var rest := Append(bs[1..], client, track);
        ConsBinding(bs[0], rest);
        [bs[0]] + rest
  }

  /**
   * Appending keeps the clients in their insertion order: a client already
   * bound stays where it is, and a new client is added last.
   */
  lemma {:induction false} AppendKeepsClientOrder(bs: seq<Binding>, client: string, track: string)
    ensures client in ClientsOf(bs) ==> ClientsOf(Append(bs, client, track)) == ClientsOf(bs)
    ensures client !in ClientsOf(bs) ==> ClientsOf(Append(bs, client, track)) == ClientsOf(bs) + [client]
    decreases |bs|
  {
    if bs != [] {
      assert bs == [bs[0]] + bs[1..];
      ConsBinding(bs[0], bs[1..]);
      if bs[0].client == client {
        ConsBinding(Binding(client, bs[0].tracks + [track]), bs[1..]);
      } else {
        AppendKeepsClientOrder(bs[1..], client, track);
        ConsBinding(bs[0], Append(bs[1..], client, track));
      }
    }
  }

  /** The tracks of a binding list in the order dispatch visits them: client by client. */
  function Flatten(bs: seq<Binding>): (r: seq<string>)
    ensures forall t :: t in r <==> exists i :: 0 <= i < |bs| && t in bs[i].tracks
    decreases |bs|
  {
    if bs == [] then []
    else
      var rest := Flatten(bs[1..]);
      assert forall i :: 1 <= i < |bs| ==> bs[i] == bs[1..][i - 1];
      bs[0].tracks + rest
  }

  /** The bindings for `(controller, signal)` in the trigger map, if any. */
  function TriggerEntry(t: Tables, controller: string, signal: SignalLabel): Option<seq<Binding>>
  {
    if controller in t.triggerMap && signal in t.triggerMap[controller]
    then Some(t.triggerMap[controller][signal]) else None
  }

  /** The scene for `(controller, signal)` in the scene map, if any. */
  function SceneEntry(t: Tables, controller: string, signal: SignalLabel): Option<string>
  {
    if controller in t.sceneMap && signal in t.sceneMap[controller]
    then Some(t.sceneMap[controller][signal]) else None
  }

  /**
   * `assign_track`: appends the track to `[controller][signal][client]`,
   * creating whichever levels are missing. Duplicates are kept and every
   * other entry and table is unchanged.
   */
  function AssignTrack(t: Tables, controller: string, signal: SignalLabel, client: string, track: string): (r: Tables)
    ensures r.scenes == t.scenes && r.sceneMap == t.sceneMap && r.modeSwitch == t.modeSwitch
    ensures TriggerEntry(r, controller, signal).Some?
    ensures var before := TriggerEntry(t, controller, signal).GetOr([]);
            var now := TriggerEntry(r, controller, signal).value;
            && Lookup(now, client) == Some(Lookup(before, client).GetOr([]) + [track])
            && (forall other :: other != client ==> Lookup(now, other) == Lookup(before, other))
    ensures forall c, s :: (c, s) != (controller, signal) ==> TriggerEntry(r, c, s) == TriggerEntry(t, c, s)
  {
    var inner := if controller in t.triggerMap then t.triggerMap[controller] else map[];
    var bs := if signal in inner then inner[signal] else [];
    t.(triggerMap := t.triggerMap[controller := inner[signal := Append(bs, client, track)]])
  }

  /** Assigning the same track twice binds it twice. */
  lemma AssignTrackKeepsDuplicates(controller: string, signal: SignalLabel, client: string, track: string)
    ensures var t := AssignTrack(AssignTrack(EmptyTables(), controller, signal, client, track),
                                 controller, signal, client, track);
            Lookup(TriggerEntry(t, controller, signal).value, client) == Some([track, track])
  {
    var t1 := AssignTrack(EmptyTables(), controller, signal, client, track);
    assert Lookup(TriggerEntry(t1, controller, signal).value, client) == Some([track]) by {
      assert Lookup([], client).GetOr([]) + [track] == [track];
    }
    var t2 := AssignTrack(t1, controller, signal, client, track);
    assert TriggerEntry(t1, controller, signal).GetOr([]) == TriggerEntry(t1, controller, signal).value;
    assert [track] + [track] == [track, track];
  }

  /** `add_scene`: registers the scene with no members, replacing any scene of that name. */
  function AddScene(t: Tables, scene: string): (r: Tables)
    ensures r.scenes.Keys == t.scenes.Keys + {scene}
    ensures r.scenes[scene] == map[]
    ensures forall s :: s in t.scenes && s != scene ==> r.scenes[s] == t.scenes[s]
    ensures r.sceneMap == t.sceneMap && r.triggerMap == t.triggerMap && r.modeSwitch == t.modeSwitch
  {
    t.(scenes := t.scenes[scene := map[]])
  }

  /**
   * `add_track_to_scene`: appends the track to the client's list in the
   * scene, creating an absent scene empty first and an absent client entry.
   */
  function AddTrackToScene(t: Tables, client: string, track: string, scene: string): (r: Tables)
    ensures r.scenes.Keys == t.scenes.Keys + {scene}
    ensures var before := if scene in t.scenes then t.scenes[scene] else map[];
            && r.scenes[scene].Keys == before.Keys + {client}
            && r.scenes[scene][client] == (if client in before then before[client] else []) + [track]
            && (forall c :: c in before && c != client ==> r.scenes[scene][c] == before[c])
    ensures forall s :: s in t.scenes && s != scene ==> r.scenes[s] == t.scenes[s]
    ensures r.sceneMap == t.sceneMap && r.triggerMap == t.triggerMap && r.modeSwitch == t.modeSwitch
  {
    var t1 := if scene !in t.scenes then AddScene(t, scene) else t;
    var members := t1.scenes[scene];
    if client in members then
      t1.(scenes := t1.scenes[scene := members[client := members[client] + [track]]])
    else
      t1.(scenes := t1.scenes[scene := members[client := [track]]])
  }

  /**
   * `assign_scene`, on its creating paths: registers the scene if absent and
   * maps `(controller, signal)` to it. Re-mapping a signal that already has a
   * scene calls `update` on a string in the source and raises; that case
   * yields `None`.
   */
  function AssignScene(t: Tables, controller: string, signal: SignalLabel, scene: string): (r: Option<Tables>)
    ensures r.None? <==> SceneEntry(t, controller, signal).Some?
    ensures r.Some? ==>
      && SceneEntry(r.value, controller, signal) == Some(scene)
      && (forall c, s :: (c, s) != (controller, signal) ==> SceneEntry(r.value, c, s) == SceneEntry(t, c, s))
      && scene in r.value.scenes
      && (scene in t.scenes ==> r.value.scenes == t.scenes)
      && (scene !in t.scenes ==> r.value.scenes == t.scenes[scene := map[]])
      && r.value.triggerMap == t.triggerMap && r.value.modeSwitch == t.modeSwitch
  {
    var t1 := if scene !in t.scenes then AddScene(t, scene) else t;
    if controller in t1.sceneMap then
      if signal in t1.sceneMap[controller] then None
      else Some(t1.(sceneMap := t1.sceneMap[controller := t1.sceneMap[controller][signal := scene]]))
    else
      Some(t1.(sceneMap := t1.sceneMap[controller := map[signal := scene]]))
  }

  /** `assign_mode_switch`: appends the signal to the controller's mode-switch list, creating it if absent. */
  function AssignModeSwitch(t: Tables, controller: string, signal: SignalLabel): (r: Tables)
    ensures r.modeSwitch.Keys == t.modeSwitch.Keys + {controller}
    ensures r.modeSwitch[controller] ==
      (if controller in t.modeSwitch then t.modeSwitch[controller] else []) + [signal]
    ensures forall c :: c in t.modeSwitch && c != controller ==> r.modeSwitch[c] == t.modeSwitch[c]
    ensures r.scenes == t.scenes && r.sceneMap == t.sceneMap && r.triggerMap == t.triggerMap
  {
    if controller !in t.modeSwitch then t.(modeSwitch := t.modeSwitch[controller := [signal]])
    else t.(modeSwitch := t.modeSwitch[controller := t.modeSwitch[controller] + [signal]])
  }

  /** Whether `(controller, signal)` is one of the controller's mode-switch signals. */
  predicate IsModeSwitch(t: Tables, controller: string, signal: SignalLabel)
  {
    controller in t.modeSwitch && signal in t.modeSwitch[controller]
  }

  /** After `assign_mode_switch` the signal is a mode switch, whatever else the tables hold. */
  lemma AssignModeSwitchRecognised(t: Tables, controller: string, signal: SignalLabel)
    ensures IsModeSwitch(AssignModeSwitch(t, controller, signal), controller, signal)
  {
  }
}

=== FILE: scenarios.dfy ===
/**
 * End-to-end behaviour: a signal handled by the orchestrator
 * (src/py_midiplexer/py_midiplexer.py) and the event it delivers, applied by
 * the client (py_midiplexer/client.py).
 */
module Scenarios {
  import opened Common
  import opened Tracks
  import opened Clients
  import opened Controllers
  import opened Routing
  import opened Plexer

  /** Whether `l` is one of the client's tracks in the scene. */
  predicate InScene(members: Members, client: string, l: string)
  {
    client in members && l in members[client]
  }

  /**
   * A scene event applied by a client: it succeeds when the client has its
   * member tracks, and leaves playing exactly those tracks (none at all when
   * the client is not in the scene).
   */
  lemma ApplySceneEvent(members: Members, c: Client, port: seq<Message>)
    requires WellFormed(c)
    requires forall l :: InScene(members, c.name, l) ==> l in c.tracks
    ensures var out := ApplyEvent(c, SceneEvent(members, c.name, SceneMode), port);
            && out.Success?
            && forall l :: l in c.tracks ==> out.value.client.tracks[l].playing == InScene(members, c.name, l)
  {
    var e := SceneEvent(members, c.name, SceneMode);
    if c.name in members {
      assert e == Event(Some(members[c.name]), Some(true));
    } else {
      assert e == Event(None, Some(false));
    }
  }

  /**
   * A press of a scene signal in scene mode: the client receives one event,
   * and applying it leaves playing exactly that client's tracks of the scene
   * (all of them, when the client is in the scene and has them).
   */
  lemma SceneActivationPlaysExactlyScene(p: Plexer, s: Signal, scene: string, j: nat, c: Client, port: seq<Message>)
    requires p.mode == SceneMode && p.signals == [s] && !Switches(p, s)
    requires SceneEntry(p.tables, s.controller, s.signal) == Some(scene) && scene in p.tables.scenes
    requires j < |p.clients| && c.name == p.clients[j].name && WellFormed(c)
    requires forall l :: InScene(p.tables.scenes[scene], c.name, l) ==> l in c.tracks
    ensures var members := p.tables.scenes[scene];
            var e := SceneEvent(members, c.name, SceneMode);
            var out := ApplyEvent(c, e, port);
            && HandleSignals(p).value.clients[j].events == p.clients[j].events + [e]
            && out.Success?
            && forall l :: l in c.tracks ==> out.value.client.tracks[l].playing == InScene(members, c.name, l)
  {
    var q := p.(signals := []);
    HandleLoneSignal(p, s);
    assert Route(q, s) == TriggerScene(q, scene);
    ApplySceneEvent(p.tables.scenes[scene], c, port);
  }

  /**
   * Pressing a scene signal twice comes to the same as pressing it once, for
   * every client: the client receives the scene event twice, and the second
   * application changes nothing and sends nothing (and when the client lacks
   * one of the scene's tracks, both applications fail and change nothing).
   */
  lemma ScenePressIdempotent(p: Plexer, s: Signal, scene: string, j: nat, c: Client, port: seq<Message>)
    requires p.mode == SceneMode && !Switches(p, s)
    requires SceneEntry(p.tables, s.controller, s.signal) == Some(scene) && scene in p.tables.scenes
    requires j < |p.clients| && c.name == p.clients[j].name && WellFormed(c)
    ensures var e := SceneEvent(p.tables.scenes[scene], c.name, SceneMode);
            && Route(Route(p, s), s).clients[j].events == p.clients[j].events + [e, e]
            && Settle(Applied(c, port), [e, e]) == Settle(Applied(c, port), [e])
  {
    ScenePressTwice(p, s);
    var members := p.tables.scenes[scene];
    var e := SceneEvent(members, c.name, SceneMode);
    var a := Applied(c, port);
    if c.name in members {
      assert e == Event(Some(members[c.name]), Some(true));
    }
    assert [e, e][1..] == [e];
    if ApplyEvent(c, e, port).Failure? {
      assert Settle(a, [e, e]) == Settle(a, [e]);
    } else {
      var once := ApplyEvent(c, e, port).value;
      SceneEventIdempotent(c, e, port);
      assert Settle(a, [e, e]) == Settle(once, [e]);
      assert Settle(once, [e]) == Settle(once, []) == once;
      assert Settle(a, [e]) == Settle(once, [e][1..]);
    }
  }

  /** One broadcast toggle event for a track the client has: that track flips, nothing else changes. */
  lemma ApplyTrackEvent(c: Client, t: string, port: seq<Message>)
    requires WellFormed(c) && t in c.tracks
    ensures var r := ApplyEvent(c, TrackEvent(t), port);
            && r.Success?
            && forall l :: l in c.tracks ==>
                 && SameConfig(c.tracks[l], r.value.client.tracks[l])
                 && r.value.client.tracks[l].playing == (c.tracks[l].playing != (l == t))
  {
    var r := ApplyEvent(c, TrackEvent(t), port);
    assert forall l :: l in [t] ==> l in c.tracks;
    forall l | l in c.tracks
      ensures r.value.client.tracks[l].playing == (c.tracks[l].playing != (l == t))
    {
      assert multiset([t])[l] == if l == t then 1 else 0;
    }
  }

  /** Settling a list of track events: the first event, then the rest. */
  lemma SettleTrackEventsStep(a: Applied, ts: seq<string>)
    requires WellFormed(a.client) && ts != [] && ts[0] in a.client.tracks
    ensures ApplyEvent(a.client, TrackEvent(ts[0]), a.port).Success?
    ensures Settle(a, TrackEvents(ts)) == Settle(ApplyEvent(a.client, TrackEvent(ts[0]), a.port).value, TrackEvents(ts[1..]))
  {
    var evs := TrackEvents(ts);
    assert evs[0] == TrackEvent(ts[0]) && evs[1..] == TrackEvents(ts[1..]);
    ApplyTrackEvent(a.client, ts[0], a.port);
  }

  /** A track event naming a track the client lacks fails, and settling skips it. */
  lemma SettleTrackEventsSkip(a: Applied, ts: seq<string>)
    requires WellFormed(a.client) && ts != [] && ts[0] !in a.client.tracks
    ensures ApplyEvent(a.client, TrackEvent(ts[0]), a.port).Failure?
    ensures Settle(a, TrackEvents(ts)) == Settle(a, TrackEvents(ts[1..]))
  {
    var evs := TrackEvents(ts);
    assert evs[0] == TrackEvent(ts[0]) && evs[1..] == TrackEvents(ts[1..]);
    assert ts[0] in TrackEvent(ts[0]).tracklist.value;
  }

  /**
   * Applying the broadcast single-track toggle events of a trigger press to
   * any client: each of its tracks flips once per occurrence in the list, an
   * event for a track it lacks is skipped, and nothing but the playing flags
   * changes.
   */
  lemma {:induction false} SettleTrackEvents(a: Applied, ts: seq<string>)
    requires WellFormed(a.client)
    ensures var r := Settle(a, TrackEvents(ts));
            forall l :: l in a.client.tracks ==>
              && SameConfig(a.client.tracks[l], r.client.tracks[l])
              && r.client.tracks[l].playing == (a.client.tracks[l].playing != Odd(multiset(ts)[l]))
    decreases |ts|
  {
    if ts == [] {
      assert Settle(a, TrackEvents(ts)) == a;
    } else if ts[0] !in a.client.tracks {
      SettleTrackEventsSkip(a, ts);
      SettleTrackEvents(a, ts[1..]);
      forall l | l in a.client.tracks
        ensures multiset(ts)[l] == multiset(ts[1..])[l]
      {
        CountHead(ts, l);
      }
    } else {
      ApplyTrackEvent(a.client, ts[0], a.port);
      SettleTrackEventsStep(a, ts);
      var next := ApplyEvent(a.client, TrackEvent(ts[0]), a.port).value;
      SettleTrackEvents(next, ts[1..]);
      var r := Settle(a, TrackEvents(ts));
      forall l | l in a.client.tracks
        ensures SameConfig(a.client.tracks[l], r.client.tracks[l])
        ensures r.client.tracks[l].playing == (a.client.tracks[l].playing != Odd(multiset(ts)[l]))
      {
        CountHead(ts, l);
        ParityStep(a.client.tracks[l].playing, next.client.tracks[l].playing, r.client.tracks[l].playing,
                   l == ts[0], multiset(ts[1..])[l], multiset(ts)[l]);
      }
    }
  }

  /** A track at its defaults flipped an even number of times is the track it was. */
  lemma EvenFlipsRestore(t: Track, u: Track, k: nat, n: nat)
    requires AtDefault(t) && AtDefault(u) && SameConfig(t, u)
    requires u.playing == (t.playing != Odd(n)) && n == k + k
    ensures u == t
  {
    OddSum(k, k);
  }

  /**
   * Settling the toggle events of a track list twice over restores the
   * client, whichever of the tracks it has: each of its tracks is toggled an
   * even number of times and its working fields are back at the defaults.
   */
  lemma TrackEventsTwiceRestore(c: Client, ts: seq<string>, port: seq<Message>)
    requires WellFormed(c)
    ensures Settle(Applied(c, port), TrackEvents(ts) + TrackEvents(ts)).client == c
  {
    assert TrackEvents(ts) + TrackEvents(ts) == TrackEvents(ts + ts);
    var r := Settle(Applied(c, port), TrackEvents(ts + ts));
    assert r.client.tracks == c.tracks by {
      SettleTrackEvents(Applied(c, port), ts + ts);
      assert multiset(ts + ts) == multiset(ts) + multiset(ts);
      forall l | l in c.tracks
        ensures r.client.tracks[l] == c.tracks[l]
      {
        EvenFlipsRestore(c.tracks[l], r.client.tracks[l], multiset(ts)[l], multiset(ts + ts)[l]);
      }
    }
  }

  /**
   * Pressing a trigger signal twice in trigger mode delivers the bound tracks'
   * toggle events twice to every client, which restores every client.
   */
  lemma TriggerPressTwiceRestores(p: Plexer, s: Signal, j: nat, c: Client, port: seq<Message>)
    requires p.mode == TriggerMode && !Switches(p, s)
    requires TriggerEntry(p.tables, s.controller, s.signal).Some?
    requires j < |p.clients| && WellFormed(c)
    ensures var ts := Flatten(TriggerEntry(p.tables, s.controller, s.signal).value);
            && Route(Route(p, s), s).clients[j].events == p.clients[j].events + TrackEvents(ts) + TrackEvents(ts)
            && Settle(Applied(c, port), TrackEvents(ts) + TrackEvents(ts)).client == c
  {
    var ts := Flatten(TriggerEntry(p.tables, s.controller, s.signal).value);
    TriggerPressTwice(p, s);
    TrackEventsTwiceRestore(c, ts, port);
  }

  /** A stopped or playing `note_on` track with no data. */
  function PlainTrack(name: string, playing: bool): Track
  {
    Track(name, "note_on", map[], map[], map[], map[], playing, false)
  }

  /** The scene `s1`, holding `A`'s `t0`, mapped to `(ctl, sig)`; the signal is queued in scene mode. */
  function DemoPlexer(ctl: string, sig: SignalLabel): Plexer
  {
    var tables := Tables(map["s1" := map["A" := ["t0"]]], map[ctl := map[sig := "s1"]], map[], map[]);
    Plexer(SceneMode, tables, [Slot("A", []), Slot("B", [])], [Signal(ctl, sig)])
  }

  /** Client `A`: tracks `t0` and `t1`, both stopped. */
  function DemoClientA(): (c: Client)
    ensures WellFormed(c) && c.name == "A" && c.tracks.Keys == {"t0", "t1"}
  {
    var c := Client("A", false, ["t0", "t1"], map["t0" := PlainTrack("t0", false), "t1" := PlainTrack("t1", false)]);
    assert c.order[0] != c.order[1];
    c
  }

  /** Client `B`: track `t0`, playing. */
  function DemoClientB(): (c: Client)
    ensures WellFormed(c) && c.name == "B" && c.tracks.Keys == {"t0"}
  {
    Client("B", false, ["t0"], map["t0" := PlainTrack("t0", true)])
  }

  /**
   * Pressing the signal mapped to `s1` in scene mode: `A` is sent its member
   * list with "on", and `B`, which is not in the scene, is sent "all off".
   */
  lemma DemoSceneDelivers(ctl: string, sig: SignalLabel)
    ensures var done := HandleSignals(DemoPlexer(ctl, sig));
            && done.Success? && |done.value.clients| == 2
            && done.value.clients[0].events == [Event(Some(["t0"]), Some(true))]
            && done.value.clients[1].events == [Event(None, Some(false))]
  {
    var p := DemoPlexer(ctl, sig);
    var s := Signal(ctl, sig);
    assert !Switches(p, s);
    HandleLoneSignal(p, s);
    var q := p.(signals := []);
    assert Route(q, s) == TriggerScene(q, "s1");
    var members := map["A" := ["t0"]];
    assert SceneEvent(members, "A", SceneMode) == Event(Some(["t0"]), Some(true));
    assert "B" !in members;
    assert SceneEvent(members, "B", SceneMode) == Event(None, Some(false));
  }

  /**
   * Applying those events: `A.t0` ends playing, `A.t1` stopped, and `B.t0`
   * stopped although it was playing.
   */
  lemma DemoClientsApply()
    ensures var a1 := ApplyEvent(DemoClientA(), Event(Some(["t0"]), Some(true)), []);
            var b1 := ApplyEvent(DemoClientB(), Event(None, Some(false)), []);
            && a1.Success? && b1.Success?
            && a1.value.client.tracks["t0"].playing
            && !a1.value.client.tracks["t1"].playing
            && !b1.value.client.tracks["t0"].playing
  {
    assert "t1" !in ["t0"];
  }
}

=== FILE: tracks.dfy ===
/**
 * A MIDI track (src/py_midiplexer/track.py): a playing flag, a message type and
 * three field maps (default, on-override, off-override). Every transition
 * composes one message and sends it on the client's port, here a sequence of
 * sent messages.
 */
module Tracks {
  import opened Common
  import opened Errors

  /** Message fields by name, as the track's data dictionaries hold them. */
  type Fields = map<string, int>

  /** A composed MIDI message: its type and exactly the fields that type carries. */
  datatype Message = Message(kind: string, fields: Fields)

  /** The attribute dictionary a track is created from; absent keys are `None`. */
  datatype TrackAttrs = TrackAttrs(
    kind: Option<string>,
    data: Option<Fields>,
    onData: Option<Fields>,
    offData: Option<Fields>,
    toggleRecord: Option<bool>)

  /**
   * `fields` is the working dictionary the next message is composed from;
   * `toggleRecord` is the record-armed flag a client command can set.
   */
  datatype Track = Track(
    name: string,
    kind: string,
    defaultData: Fields,
    onData: Fields,
    offData: Fields,
    fields: Fields,
    playing: bool,
    toggleRecord: bool)

  /** The working fields hold the default data and nothing else. */
  predicate AtDefault(t: Track)
  {
    t.fields == t.defaultData
  }

  /** Everything but the playing flag and the working fields agrees. */
  predicate SameConfig(t: Track, u: Track)
  {
    && t.name == u.name
    && t.kind == u.kind
    && t.defaultData == u.defaultData
    && t.onData == u.onData
    && t.offData == u.offData
    && t.toggleRecord == u.toggleRecord
  }

  /** Two tracks at their defaults with the same configuration differ at most in the playing flag. */
  lemma DefaultsDetermine(t: Track, u: Track)
    requires AtDefault(t) && AtDefault(u) && SameConfig(t, u) && t.playing == u.playing
    ensures t == u
  {
  }

  /** The message types the track knows how to compose. */
  const KnownKinds: set<string> := {
    "note_off", "note_on", "polytouch", "control_change", "program_change",
    "aftertouch", "pitchwheel", "sysex", "quarter_frame", "songpos",
    "song_select", "tune_request", "clock", "start", "continue", "stop", "reset"
  }

  /**
   * Creates a track. Missing data dictionaries default to empty ones, the
   * type is required, and a new track is never playing.
   */
  function NewTrack(name: string, attrs: TrackAttrs): (r: Result<Track, Halt>)
    ensures r.Failure? <==> attrs.kind.None?
    ensures r.Failure? ==> r.error == KeyErrorOn("type")
    ensures r.Success? ==>
      && r.value.name == name
      && r.value.kind == attrs.kind.value
      && !r.value.playing
      && !r.value.toggleRecord
      && AtDefault(r.value)
      && (attrs.data.None? ==> r.value.defaultData == map[])
      && (attrs.data.Some? ==> r.value.defaultData == attrs.data.value)
      && (attrs.onData.None? ==> r.value.onData == map[])
      && (attrs.onData.Some? ==> r.value.onData == attrs.onData.value)
      && (attrs.offData.None? ==> r.value.offData == map[])
      && (attrs.offData.Some? ==> r.value.offData == attrs.offData.value)
  {
    var data := attrs.data.GetOr(map[]);
    var onData := attrs.onData.GetOr(map[]);
    var offData := attrs.offData.GetOr(map[]);
    match attrs.kind
    case None => Failure(KeyErrorOn("type"))
    case Some(kind) => Success(Track(name, kind, data, onData, offData, ResetToDefault(data), false, false))
  }

  /** Copies `over` onto `base`, key by key; the keys of `over` win. */
  function Overlay(base: Fields, over: Fields): (r: Fields)
    ensures r.Keys == base.Keys + over.Keys
    ensures forall k :: k in over ==> r[k] == over[k]
    ensures forall k :: k in base && k !in over ==> r[k] == base[k]
  {
    base + over
  }

  /** Working fields rebuilt from an empty dictionary updated with the defaults. */
  function ResetToDefault(defaultData: Fields): (r: Fields)
    ensures r == defaultData
  {
    Overlay(map[], defaultData)
  }

  /** The fields a message of type `kind` carries; empty for unknown types. */
  function FieldNames(kind: string): set<string>
  {
    if kind == "note_off" || kind == "note_on" then {"channel", "note", "velocity"}
    else if kind == "polytouch" then {"channel", "note", "value"}
    else if kind == "control_change" then {"channel", "control", "value"}
    else if kind == "program_change" then {"channel", "program"}
    else if kind == "aftertouch" then {"channel", "value"}
    else if kind == "pitchwheel" then {"channel", "pitch"}
    else if kind == "sysex" then {"data"}
    else if kind == "quarter_frame" then {"frame_type", "frame_value"}
    else if kind == "songpos" then {"pos"}
    else if kind == "song_select" then {"song"}
    else {}
  }

  /** The value used for a field the working dictionary lacks. */
  function FieldDefault(name: string): int
  {
    if name == "velocity" then 64 else 0
  }

  /**
   * Composes the message for the working fields: the type's own fields, each
   * taken from the dictionary or else from its fixed default. An unrecognised
   * type composes no message.
   */
  function GetMsg(kind: string, fields: Fields): (r: Option<Message>)
    ensures r.Some? <==> kind in KnownKinds
    ensures r.Some? ==> r.value.kind == kind && r.value.fields.Keys == FieldNames(kind)
    ensures r.Some? ==> forall n :: n in r.value.fields ==>
      r.value.fields[n] == (if n in fields then fields[n] else FieldDefault(n))
  {
    if kind in KnownKinds then
      Some(Message(kind, map n | n in FieldNames(kind) :: if n in fields then fields[n] else FieldDefault(n)))
    else
      None
  }

  /** Fields the message type does not carry never reach the message. */
  lemma GetMsgIgnoresForeignFields(kind: string, fields: Fields, name: string, v: int)
    requires name !in FieldNames(kind)
    ensures GetMsg(kind, fields[name := v]) == GetMsg(kind, fields)
  {
    if kind in KnownKinds {
      var a := GetMsg(kind, fields[name := v]).value;
      var b := GetMsg(kind, fields).value;
      assert a.fields == b.fields;
    }
  }

  /** A control change carries channel, control and value; the note field is dropped. */
  lemma ControlChangeExample()
    ensures GetMsg("control_change", map["value" := 127, "note" := 60]) ==
      Some(Message("control_change", map["channel" := 0, "control" := 0, "value" := 127]))
  {
    var cc := GetMsg("control_change", map["value" := 127, "note" := 60]).value;
    assert cc.fields == map["channel" := 0, "control" := 0, "value" := 127];
  }

  /** A note on with no data gets channel 0, note 0 and velocity 64. */
  lemma NoteOnDefaultsExample()
    ensures GetMsg("note_on", map[]) ==
      Some(Message("note_on", map["channel" := 0, "note" := 0, "velocity" := 64]))
  {
    var on := GetMsg("note_on", map[]).value;
    assert on.fields == map["channel" := 0, "note" := 0, "velocity" := 64];
  }

  /** A clock message carries no field at all. */
  lemma ClockExample()
    ensures GetMsg("clock", map["value" := 1]) == Some(Message("clock", map[]))
  {
    var clock := GetMsg("clock", map["value" := 1]).value;
    assert clock.fields == map[];
  }

  /** An unrecognised type composes no message. */
  lemma UnknownKindExample()
    ensures GetMsg("bogus", map[]) == None
  {
  }

  /** Sends a message on the port if one was composed. */
  function Send(port: seq<Message>, m: Option<Message>): seq<Message>
  {
    match m
    case Some(msg) => port + [msg]
    case None => port
  }

  /** A track after a trigger, together with its port. */
  datatype Fired = Fired(track: Track, port: seq<Message>)

  /** The override dictionary used when a track becomes playing (`on`) or stops. */
  function Override(t: Track, on: bool): Fields
  {
    if on then t.onData else t.offData
  }

  /** Whether `trigger(desired)` changes the playing flag and therefore sends. */
  predicate Changes(t: Track, desired: Option<bool>)
  {
    desired.None? || desired.value != t.playing
  }

  /**
   * `trigger(desired)`: `None` toggles; `Some(b)` drives the track to `b` and
   * does nothing if it is already there. A change applies the override for
   * the new state to the working fields, sends the composed message, and in
   * every case the working fields are reset to the default data afterwards.
   */
  function Trigger(t: Track, desired: Option<bool>, port: seq<Message>): (r: Fired)
    ensures r.track.playing == (if desired.None? then !t.playing else desired.value)
    ensures AtDefault(r.track) && SameConfig(t, r.track)
    ensures !Changes(t, desired) ==> r.port == port
    ensures Changes(t, desired) && t.kind !in KnownKinds ==> r.port == port
    ensures Changes(t, desired) && t.kind in KnownKinds ==>
      && |r.port| == |port| + 1
      && port <= r.port
      && r.port[|port|].kind == t.kind
      && r.port[|port|].fields.Keys == FieldNames(t.kind)
    ensures Changes(t, desired) && t.kind in KnownKinds && AtDefault(t) ==>
      var sent := r.port[|port|].fields;
      var over := Override(t, r.track.playing);
      && (forall n :: n in sent && n in over ==> sent[n] == over[n])
      && (forall n :: n in sent && n !in over && n in t.defaultData ==> sent[n] == t.defaultData[n])
      && (forall n :: n in sent && n !in over && n !in t.defaultData ==> sent[n] == FieldDefault(n))
  {
    var on := if desired.None? then !t.playing else desired.value;
    var reset := t.(fields := ResetToDefault(t.defaultData));
    if Changes(t, desired) then
      var working := Overlay(t.fields, Override(t, on));
      Fired(reset.(playing := on), Send(port, GetMsg(t.kind, working)))
    else
      Fired(reset, port)
  }

  /** Toggling twice restores the track, having sent one message per toggle. */
  lemma ToggleTwiceRestores(t: Track, port: seq<Message>)
    requires AtDefault(t)
    ensures var once := Trigger(t, None, port);
            var twice := Trigger(once.track, None, once.port);
            && twice.track == t
            && |twice.port| == |port| + (if t.kind in KnownKinds then 2 else 0)
  {
  }

  /** Driving a track to the same state twice: the second call changes and sends nothing. */
  lemma ForceIdempotent(t: Track, b: bool, port: seq<Message>)
    ensures var once := Trigger(t, Some(b), port);
            Trigger(once.track, Some(b), once.port) == once
  {
  }

  /**
   * Override precedence: a control-change track whose on-data sets value 127
   * over a default of 0 sends value 127 when it starts playing, and exposes
   * the default data again afterwards.
   */
  lemma OverridePrecedenceExample()
    ensures var t := Track("t0", "control_change", map["value" := 0], map["value" := 127], map[],
                           map["value" := 0], false, false);
            var r := Trigger(t, None, []);
            && r.port == [Message("control_change", map["channel" := 0, "control" := 0, "value" := 127])]
            && r.track.fields == map["value" := 0]
            && r.track.playing
  {
    var t := Track("t0", "control_change", map["value" := 0], map["value" := 127], map[],
                   map["value" := 0], false, false);
    var m := GetMsg("control_change", Overlay(t.fields, t.onData)).value;
    assert Overlay(t.fields, t.onData) == map["value" := 127];
    assert m.fields == map["channel" := 0, "control" := 0, "value" := 127];
  }

  /** What `get_config_dict` reports for a track. */
  datatype TrackConfig = TrackConfig(name: string, kind: string, data: Fields)

  /** `get_config_dict`: label, type and the working fields. */
  function ConfigOf(t: Track): (r: TrackConfig)
    ensures AtDefault(t) ==> r.data == t.defaultData
    ensures r.name == t.name && r.kind == t.kind
  {
    TrackConfig(t.name, t.kind, t.fields)
  }
}
